=== FILE: README.md ===
# Login and session lifecycle of the Telegram-bot backend, in Dafny

This project models the authentication core of a FastAPI backend. Users are
identified by their Telegram id; a login opens (or reuses) a server-side
session row and hands out an access and a refresh JWT bound to it; every
protected request verifies the access token against its session; the refresh
route rotates the session; logout revokes it. Underneath sits a generic DAO
(`BaseDAO`) over the session table.

Everything is a pure function over immutable data: a request is a record of
cookies, headers and a user agent; the database is a `Db` of a read-only user
table and a session table; each route is a function from the state, the time
`now` (integer seconds) and its inputs to an `Outcome`: the new state and
either a value or a named error. A failed route leaves the state as it found
it (the request's transaction is rolled back). Uncaught Python exceptions are
the error `Crash(fault)` with the fault named.

Modules, one per file, following the program's structure:

| file | module | models |
|---|---|---|
| `wrappers.dfy` | `Wrappers` | `Option`, `Result` |
| `text.dfy` | `Text` | `str.isdigit`, `int()`, `str(n)`, `split`, `capitalize`, `join`, ASCII case folding |
| `dao.dfy` | `Dao` | `BaseDAO` over a table of column maps |
| `users.dfy` | `Users` | the user table and its lookups |
| `sessions.dfy` | `Sessions` | the typed session table, and bridge lemmas showing each session query is the DAO query on its row encoding |
| `tokens.dfy` | `Tokens` | claim sets, decoding, token creation and lifetimes |
| `web.dfy` | `Web` | requests, cookie and header names, the error conditions, the issued token pair |
| `store.dfy` | `Store` | the database state, its constraints, route outcomes |
| `security.dfy` | `Security` | `create_session`, `issue_tokens`, the login route |
| `auth.dfy` | `AuthService` | token lookup, verification, refresh, logout |
| `auth_deps.dfy` | `AuthDeps` | `get_current_user`, `check_access_token`, `check_refresh_token` |
| `admin_deps.dfy` | `AdminDeps` | `check_admin_privileges` |
| `lifecycle.dfy` | `Lifecycle` | sequences of login, refresh and logout calls |

Tokens are abstract: a token is either `Signed(claims)`, one the service
signed, or `Unsigned(text)`, anything else. Decoding follows the codec: an
unsigned text is malformed, a signed token whose `exp` lies before `now` is
expired, and any other token yields its claims.

Several source defects are modelled twice: once as written, and once as
evidently intended (the members ending in `Fixed`, `Intended` or `Repaired`).
The lemmas about each pair show the defect on a concrete kind of input and
prove the intended property of the repair (see "## Findings").
`Lifecycle.Wiring` chooses which refresh flow a run uses.

The model follows the code in these behaviours, although a client might
expect otherwise:
- Logout decodes without catching anything, so an expired or foreign token
  makes it fail with a server error rather than log out quietly. It checks
  neither the token's kind nor the session's owner.
- Verification answers `Forbidden` for an absent, inactive or foreign session
  alike, and refresh answers `SessionNotValid` for an inactive, expired or
  foreign one alike. Neither tells these cases apart.
- Refresh never checks the `type` claim.
- The successor session takes the user agent of the refresh request, not the
  one of the session it replaces.

## Model

| member | source | states |
|---|---|---|
| Dao.NewDao | app/crud/base.py:16-20 | constructing a DAO fails with the missing-model error exactly when no model is set |
| Dao.FindOneOrNoneById | app/crud/base.py:22-29 | none exactly when no row holds the id; a row returned holds the id and is the only row that does; `MultipleResultsFound` exactly when several rows hold it |
| Dao.FindOneOrNone | app/crud/base.py:34-43 | none exactly when no row satisfies every filter equality; a returned row is the only match; `MultipleResultsFound` exactly when more than one row matches |
| Dao.FindAll | app/crud/base.py:48-56 | the rows returned are exactly the table's rows that match the filter; with no filter, the whole table |
| Dao.EmptyFilterSelectsAll | app/crud/base.py:49-52 | an empty filter dictionary selects every row, in order |
| Dao.ApplyFields | app/crud/base.py:80-83 | a row updated with the set values keeps every column not assigned and gains exactly the assigned columns |
| Dao.ApplyFieldsAssigns | app/crud/base.py:80-83 | every assigned column holds its new value afterwards |
| Dao.Update | app/crud/base.py:74-91 | the table keeps its length; rows matching every filter equality get the values, every other row is unchanged; the row count is the number of matches |
| Dao.UpdateRead | app/crud/base.py:79-94 | `update` including the row read after the statement: it raises exactly when the result carries no rows or more than one row was updated, with the matching error; when it returns, the table is what the statement made it and at most one row was updated |
| Dao.Delete | app/crud/base.py:96-108 | an empty filter is refused with nothing removed; otherwise the remaining rows are exactly the non-matching ones and the count is the number of matches |
| Dao.DeletePartitions | app/crud/base.py:103-104 | the deleted and the kept rows together are the table, as multisets |
| Dao.Count | app/crud/base.py:114-121 | the count never exceeds the number of rows (its equality with `find_all` is the next row) |
| Dao.CountMatchesFindAll | app/crud/base.py:114-121 | when every row has an id, `count` equals the number of rows `find_all` returns for the same filter |
| Users.FindByTelegramId | app/api/v1/auth.py:34-40 | a user found holds the Telegram id; none exactly when no user holds it |
| Users.FindById | app/models/user.py:23-29 | a user found holds the key; none exactly when no user holds it |
| Users.FindAdminByTelegramId | app/depends/admin_dep.py:20-22 | a user found holds the id and the administrator flag; none exactly when no administrator holds the id |
| Users.FindByTelegramIdExact | app/models/user.py:12 | with `telegram_id` unique, the lookup returns the user holding it |
| Users.FindByIdExact | app/models/user.py:23 | with the key unique, the foreign-key lookup returns the user holding it |
| Sessions.SelectSessions | app/crud/base.py:38-40 | the selected rows are exactly the table's rows matching the set filter fields |
| Sessions.MatchesAgree | app/crud/base.py:35-38 | a typed session filter matches a row exactly when the DAO's equality filter over its set fields matches the row's encoding |
| Sessions.SelectAgrees | app/crud/base.py:38-40 | selecting typed rows is selecting their encodings through the DAO |
| Sessions.FindSession | app/crud/base.py:34-43 | none exactly when no row matches; a returned row is the only match; an error exactly when several match |
| Sessions.FindSessionAgrees | app/crud/base.py:34-43 | the typed lookup is the DAO's `find_one_or_none` on the encoded table |
| Sessions.FindSessionById | app/crud/base.py:22-29 | none exactly when no row has the id; a returned row is in the table, has the id and is the only row that does; an error exactly when several rows have it |
| Sessions.Deactivate | app/services/auth.py:128-134 | the table keeps its length; exactly the rows matching the filter lose `is_active`; the others are unchanged |
| Sessions.DeactivateRead | app/crud/base.py:79-94 | revocation through `update` with its row read fails exactly when the read raises; when it returns, the table is the revoked one and is what the DAO's update computes on the encoded rows |
| Sessions.DeactivateAgrees | app/crud/base.py:74-91 | the typed revocation is the DAO's `update` with `is_active=False` on the encoded table |
| Sessions.DeactivateRowAgrees | app/crud/base.py:83 | assigning `is_active=False` to a row's encoding encodes the revoked row |
| Sessions.AddSession | app/crud/base.py:61-69 | the insert is refused exactly when the key is taken; otherwise the row is appended |
| Sessions.AddKeepsUniqueIds | app/models/user.py:22 | adding under an unused key keeps the primary key unique |
| Sessions.SelectByIdSingle | app/crud/base.py:22-26 | with unique keys, selecting by a row's id yields that row alone |
| Sessions.FindByIdLocates | app/crud/base.py:22-29 | with unique keys, the lookup by a row's id returns that row |
| Sessions.FindByIdNeverMultiple | app/crud/base.py:26 | with unique keys, the lookup by id never meets several rows |
| Sessions.DeactivateReadAfterLookup | app/services/auth.py:167-175 | once the lookup by id has returned, revoking that id with a row-returning result never raises, and yields the revoked table |
| Tokens.Decode | app/services/auth.py:51-54 | decoding is malformed exactly for unsigned text, expired exactly for a signed token whose `exp` is before `now`, and otherwise returns the token's own claims |
| Tokens.CreateJwtToken | app/utils/security.py:15-23 | a created token is never the empty text |
| Tokens.DecodeCreated | app/utils/security.py:15-23 | a created token decodes to exactly `{sub, sid, exp: now + lifetime, type}` up to its expiry second, and is expired after it |
| Tokens.AccessLifetime | app/utils/security.py:30 | the access lifetime as written is 1440 times the lifetime the setting's name promises, so longer whenever the setting is positive |
| Tokens.CreateAccessToken | app/utils/security.py:26-32 | the access token has kind `"access"` and expires `ACCESS_EXPIRE_MINUTES` days after issue |
| Tokens.CreateRefreshToken | app/utils/security.py:35-41 | the refresh token has kind `"refresh"` and expires `REFRESH_EXPIRE_DAYS` days after issue |
| Tokens.AccessOutlivesRefresh | app/utils/security.py:30 | with a 15-minute access setting and a 7-day refresh setting, the access token expires after the refresh token |
| Tokens.CreateAccessTokenIntended | app/utils/security.py:26-32 | the access token with its lifetime read as minutes has kind `"access"`, carries the subject and session id, and expires `ACCESS_EXPIRE_MINUTES` minutes after issue |
| Tokens.IntendedAccessExpiresFirst | app/utils/security.py:30 | read as minutes, the access setting makes the access token expire first whenever it is shorter than the refresh lifetime |
| Text.ParseInt | app/services/auth.py:76 | `int()` of a run of digits is the number the digits denote, and it fails on the empty text |
| Text.ParseIntRoundTrip | app/utils/security.py:18 | `int(str(n)) == n` for every integer, so the subject written at issue parses back to the Telegram id |
| Text.SplitJoin | app/services/auth.py:27 | joining the pieces of `name.split("_")` with `"_"` gives the name back: the split drops nothing but the separators |
| Web.Status | app/utils/exceptions.py:11-78 | each error reaches the client with the status of its exception: 400 exactly for a missing token or a bad token format, 401 exactly for an expired, invalid or refused-session token, 403 for `Forbidden`, 404 for an unknown user, 500 exactly for an uncaught exception |
| Web.HeaderIgnoresCase | app/services/auth.py:27-28 | with header names folded to lower case, a header is found under a name exactly when the request carries it under some spelling of that name |
| Web.CookieClient | app/utils/security.py:75-83 | a client keeping the response cookies presents each of them under its name |
| Web.HeaderClientEchoes | app/utils/security.py:68-69 | a client echoing the response token headers presents each under its issued name |
| Web.DerivedHeaderName | app/services/auth.py:27 | the derived name starts with `X-`, and for a token name without '-' it holds no other '-' |
| Web.DerivedHeaderHasOneDash | app/services/auth.py:27 | for a token name without '-', the derived header name has no '-' after its `X-` prefix |
| Security.CreateSession | app/utils/security.py:85-96 | the new row carries the given id, owner and user agent, is active, was created at `now` and expires `REFRESH_EXPIRE_DAYS` days later |
| Security.Mint | app/utils/security.py:64-65 | both tokens carry the same subject and session id, the access token with kind `"access"` and the refresh token with kind `"refresh"` |
| Security.IssueTokens | app/utils/security.py:44-70 | one active session for the user and agent is reused with the state unchanged; none opens exactly one new row under the fresh id; several is an error; a taken fresh id is an error; the tokens carry `str(telegram_id)` and the session id handed back |
| Security.Login | app/api/v1/auth.py:34-42 | `UserNotFound` exactly when no user holds the Telegram id; on success both tokens are signed, carry `str(telegram_id)` and name the returned session |
| Security.IssuedSessionIsTheActiveOne | app/utils/security.py:46-62 | after an issuance the user has exactly one active session on that agent, the issued one |
| Security.IssueTwiceSameSession | app/utils/security.py:46-62 | issuing twice for the same user and agent yields the same session id and leaves the first issuance's state |
| Security.UniqueActiveLookup | app/utils/security.py:46-52 | with at most one active session per user and agent, the reuse lookup never meets several |
| Security.IssuePreservesUniqueActive | app/utils/security.py:46-62 | issuance keeps at most one active session per user and agent |
| AuthService.GetTokenFromRequest | app/services/auth.py:21-31 | a non-empty cookie wins; otherwise a non-empty header under the derived name; `TokenNoFound` exactly when neither is present |
| AuthService.GetTokenFromRequestFixed | app/services/auth.py:21-31 | a non-empty cookie wins; otherwise a non-empty header under the name issuance writes; `TokenNoFound` exactly when neither is present |
| AuthService.CookieClientFindsTokens | app/services/auth.py:21-25 | a client that keeps the response cookies presents both tokens |
| AuthService.DerivedMissesIssued | app/services/auth.py:27 | no token name without '-' derives `X-Access-Token` or `X-Refresh-Token` |
| AuthService.HeaderClientMisses | app/services/auth.py:27-31 | a client holding only the issued token headers is refused for every such token name |
| AuthService.HeaderClientNotFound | app/services/auth.py:27-31 | a client that echoes the issued `X-Access-Token`/`X-Refresh-Token` headers gets `TokenNoFound` for both tokens |
| AuthService.HeaderClientFoundFixed | app/utils/security.py:68-69 | with the repaired lookup, the header-only client presents both tokens |
| AuthService.CheckClaims | app/services/auth.py:59-85 | checks in source order: kind mismatch gives `NoJwt`, then a missing, zero or past `exp` gives `TokenExpired`, then a missing `sub` or `sid` gives `NoJwt`, then `UserNotFound` exactly when the subject parses and no user holds it, then (session ids being unique) `Forbidden` exactly when no active session of that user carries `sid`; success returns that user |
| AuthService.VerifyTokenAndSession | app/services/auth.py:46-85 | an expired token gives `TokenExpired`, a malformed one crashes; success means the token is signed, unexpired, of the expected kind, and binds an active session owned by the user returned, whose Telegram id is `sub` |
| AuthService.VerifyTokenAndSessionFixed | app/services/auth.py:55-57 | a malformed token gives `NoJwt` and never the crash; otherwise the same as verification as written |
| AuthService.VerifyMalformedCrashes | app/services/auth.py:55-57 | any malformed token crashes verification as written and gives `NoJwt` when repaired |
| AuthService.VerifyAcceptsExactly | app/services/auth.py:59-85 | in a consistent store, a token naming a user is accepted, returning that user, exactly when its kind matches, it has not expired, and its session is active and owned by that user |
| AuthService.IssuedAccessTokenVerifies | app/services/auth.py:46-85 | the access token a login issues verifies as kind `"access"` against the state the login left, until it expires, and yields the user |
| AuthService.IssueKeepsConsistent | app/utils/security.py:55-62 | issuance keeps the primary key, the unique Telegram id and the foreign key |
| AuthService.RotateFound | app/services/auth.py:111-144 | an inactive or expired session, or one whose owner's Telegram id differs from the subject, gives `SessionNotValid`; success revokes the session, appends a successor for the same user under the unused fresh id, and mints tokens with the original subject |
| AuthService.Rotate | app/services/auth.py:102-126 | a missing `sub` or `sid` gives `InvalidTokenFormat`; an absent session crashes; success rotates the session named by `sid` |
| AuthService.RefreshTokens | app/services/auth.py:88-155 | only the `refresh_token` cookie is read: absent or empty gives `TokenExpired`, any decode failure gives `NoJwt`; success rotates the session named by the decoded claims under the caller's user agent |
| AuthService.DeactivateOnlyTarget | app/services/auth.py:128-134 | revoking by id changes only the rows holding that id, and those only lose `is_active` |
| AuthService.RefreshRotates | app/services/auth.py:128-153 | a successful refresh revokes the presented session, appends one active successor with a new id for the same user and the caller's agent, leaves every other row unchanged, keeps ids unique and mints tokens with the original `sub` and the new id |
| AuthService.RefreshIsSingleUse | app/services/auth.py:120-134 | replaying a refresh token after it rotated its session gives `SessionNotValid` |
| AuthService.RotateFixed | app/services/auth.py:108-144 | the repaired rotation refuses an absent session with `SessionNotValid`, and its successor keeps the revoked session's user agent |
| AuthService.RefreshTokensFixed | app/services/auth.py:93-106 | the repaired refresh succeeds only for a refresh cookie of kind `"refresh"`, and then rotates with the user agent carried over |
| AuthService.RefreshFixedNeverDereferencesNone | app/services/auth.py:108-109 | in a consistent store the repaired refresh never dereferences a missing row |
| AuthService.RefreshAbsentSessionCrashes | app/services/auth.py:108-109 | a valid refresh token naming no session crashes the refresh as written, and gets `SessionNotValid` when repaired |
| AuthService.RefreshAcceptsAccessToken | app/services/auth.py:97-106 | an access token in the refresh cookie rotates a live session as written, and is refused with `NoJwt` when repaired |
| AuthService.RefreshWithUpdateRead | app/services/auth.py:88-148 | refresh with the row read after the revoking update: when the result carries no rows it never succeeds and fails with a server error exactly where `RefreshTokens` succeeds; when it carries the updated rows it is exactly `RefreshTokens`; any other answer is `RefreshTokens`'s |
| AuthService.RefreshAsWrittenKeepsSessionLive | app/services/auth.py:127-145 | when the UPDATE's result carries no rows, refreshing a live session fails, the session stays active and no successor is opened, while with `update` returning the same refresh revokes it and opens an active successor under another id |
| AuthService.Logout | app/services/auth.py:158-181 | a token that does not decode fails with a server error and leaves the state unchanged; otherwise every row is unchanged or revoked, only rows carrying the token's `sid` change, the user table is untouched, and success answers `True` |
| AuthService.LogoutWithUpdateRead | app/services/auth.py:164-175 | logout with the row read after the revoking update: when the result carries no rows it never changes the state and fails with a server error whenever the named session exists; when it carries the updated rows it is exactly `Logout`; any other answer is `Logout`'s |
| AuthService.LogoutAsWrittenKeepsSessionLive | app/services/auth.py:167-175 | when the UPDATE's result carries no rows, logging out of a live session fails and leaves it active, while with `update` returning the same logout revokes it |
| AuthService.LogoutAnswers | app/services/auth.py:167-181 | with unique keys, every decodable token logs out with `{"logout": True}` |
| AuthService.DeactivateIdempotent | app/services/auth.py:169-175 | revoking the active rows under a filter twice is revoking them once |
| AuthService.LogoutIdempotent | app/services/auth.py:164-181 | a second logout with the same token changes nothing and answers the same |
| AuthService.LogoutIgnoresOwnerAndKind | app/services/auth.py:164-175 | any decodable token naming a session revokes it, whatever its kind and subject |
| AuthService.LogoutAbsentIsNoop | app/services/auth.py:167-168 | a token naming no session, or without `sid`, leaves the state unchanged and answers `True` |
| AuthDeps.GetCurrentUser | app/depends/auth_dep.py:11-18 | never returns a user: a decodable token always fails the kind check with `NoJwt` |
| AuthDeps.CheckAccessToken | app/depends/auth_dep.py:21-28 | never answers `True`, and never `False`: errors propagate, a decodable token gives `NoJwt` |
| AuthDeps.CheckRefreshToken | app/depends/auth_dep.py:31-38 | never answers either way; a decodable refresh token gives `NoJwt` |
| AuthDeps.MemberNeverMatches | app/constants/enums.py:9-11 | no `type` claim equals an enumeration member, and neither member's value is `"access"` or `"refresh"` |
| AuthDeps.FreshLoginRefused | app/depends/auth_dep.py:15 | the access token a login just issued is refused with `NoJwt` by the current-user and access-check dependencies |
| AuthDeps.GetCurrentUserFixed | app/depends/auth_dep.py:11-18 | with kind `"access"`, a user returned is in the table, is the user the token's `sub` names, and owns the active session its `sid` names; the token is unexpired and of kind `"access"`; a malformed token gives `NoJwt` |
| AuthDeps.CheckAccessTokenFixed | app/depends/auth_dep.py:21-28 | the repaired check answers `True` exactly when the repaired current-user dependency finds a user |
| AuthDeps.CheckRefreshTokenFixed | app/depends/auth_dep.py:31-38 | the repaired check answers `True` exactly when a refresh token is found and passes repaired verification for kind `"refresh"`, so only for an unexpired token of that kind; it never answers `False` |
| AuthDeps.FreshLoginAcceptedFixed | app/depends/auth_dep.py:15-18 | with the repaired dependency, a client that logged in, by cookie or by header, is recognised as that user until the access token expires |
| AdminDeps.CheckAdminPrivileges | app/depends/admin_dep.py:10-23 | missing or empty parameter exactly gives the missing-field error; non-digits exactly give the incorrect-id error; success exactly when it is a digit run whose value is an administrator's Telegram id |
| AdminDeps.AdminPasses | app/depends/admin_dep.py:15-22 | an administrator presenting `str(telegram_id)` passes |
| AdminDeps.NonAdminRefused | app/depends/admin_dep.py:20-23 | a user without the flag is refused with 401 under any digit spelling of their id |
| Lifecycle.RotatedEvolves | app/services/auth.py:128-144 | a rotation revokes in place and appends exactly one row |
| Lifecycle.StepEvolves | app/services/auth.py:88-181 | every login, refresh or logout keeps each existing row unchanged or revoked, may only append, and never touches users |
| Lifecycle.RunEvolves | app/services/auth.py:88-181 | the same holds for every sequence of route calls |
| Lifecycle.RevokedStaysRevoked | app/services/auth.py:128-134 | a revoked session is never active again, whatever calls follow |
| Lifecycle.RevocationKeepsConsistent | app/models/user.py:22-23 | revoking rows keeps the primary key and the foreign key |
| Lifecycle.RotatedKeepsConsistent | app/services/auth.py:139-144 | a rotation keeps the primary key and the foreign key |
| Lifecycle.StepKeepsConsistent | app/models/user.py:22-23 | every route call keeps the database constraints |
| Lifecycle.RunKeepsConsistent | app/models/user.py:22-23 | every sequence of route calls keeps the database constraints |
| Lifecycle.RevocationKeepsUniqueActive | app/utils/security.py:46-52 | revocation never creates a second active session for a user and agent |
| Lifecycle.RotatedKeepsUniqueActive | app/services/auth.py:137-144 | a successor that inherits its predecessor's agent keeps at most one active session per user and agent |
| Lifecycle.StepRepairedKeepsUniqueActive | app/utils/security.py:46-52 | with the repaired refresh, every route call keeps at most one active session per user and agent |
| Lifecycle.RunRepairedKeepsUniqueActive | app/utils/security.py:46-52 | the same for every sequence of route calls |
| Lifecycle.RepairedLoginNeverMeetsTwo | app/utils/security.py:46-52 | with the repaired refresh, a login after any history never fails on several active sessions |
| Lifecycle.RefreshRotatesLiveSession | app/services/auth.py:120-144 | the refresh token issued for a live, unexpired session rotates it under the caller's agent |
| Lifecycle.AgentSwitchBreaksLogin | app/services/auth.py:137-144 | refreshing one session from the agent of another active session of the same user leaves two active sessions there, and the next login from that agent crashes |
| Lifecycle.LogoutEndsSession | app/services/auth.py:167-175 | after a logout naming a session, no token bound to it passes verification |

## Left out

- JWT signing, the secret and the algorithm. A token is abstract, and `iss`, `aud` and clock skew are not read by the code.
- Time is integer seconds. Time zones, `datetime.timestamp()` of naive values and the truncation at app/utils/security.py:20 are not modelled.
- Concurrency and transactions are not modelled. Routes run one at a time, and a failed route rolls back, so the state is unchanged. The session dependency that commits or rolls back is not part of this model.
- HTTP plumbing is not modelled: `Depends`, cookie attributes, `delete_cookie` on logout, and the mapping of exceptions to status codes beyond `Web.Status`. `X-Session-ID` is the `sessionId` of `Issued`.
- Logging is not modelled, except for two log lines that raise: the unbound `payload` at app/services/auth.py:56 (`Crash(UnboundPayload)`) and the attribute read on a missing session at app/services/auth.py:109 (`Crash(NoneDereference)`). The `model_validate` call at app/services/auth.py:110 is assumed to succeed.
- A request without a `User-Agent` header is not modelled: the user agent is always a string.
- `find_one_or_none_by_telegram_id`, `find_admin_or_none_by_telegram_id` and `UserSessionDAO` are called by the code but not defined in it: app/crud/user.py only sets `UserDAO.model`. They are modelled by assumption as first-match searches over the table (`Users.FindWhere`) and as `BaseDAO` over the session table (`Sessions.FindSession`, `Sessions.Deactivate`).
- Database errors other than a taken key and several rows for a one-row lookup are not modelled. This includes filters on unknown columns.
- Dao.Update: models `update` as returning normally after its statement; the record it returns is not modelled. The code does not settle whether `scalar_one_or_none` at app/crud/base.py:87 raises on an UPDATE without RETURNING, so both shapes of the result are modelled by `Dao.UpdateRead` (see "## Findings"). Refresh, logout and the lifecycle lemmas built on them (`RefreshRotates`, `RefreshIsSingleUse`, `RunRepairedKeepsUniqueActive`, `LogoutEndsSession` and the others) assume the read returns. `AuthService.LogoutWithUpdateRead` and `AuthService.RefreshWithUpdateRead` show that they then agree with the routes the lemmas are about, and that otherwise every revocation at app/services/auth.py:128 and app/services/auth.py:169 ends in a rolled-back server error. The lifecycle lemmas are not restated for that case.
- Dao.Count: its own contract only bounds the count. The equality with `find_all` is `Dao.CountMatchesFindAll`, and holds when every row has an id, because `COUNT(id)` skips null ids.
- Tokens.CreateJwtToken: its own contract only says the token is not empty. The claim-level content is `Tokens.DecodeCreated`.
- Text.ParseInt: ASCII only. Python's `int()` also accepts surrounding whitespace, underscores between digits and non-ASCII digits. The subjects this code parses are written by `str(int)`, so they never contain those.
- AdminDeps.CheckAdminPrivileges: ASCII only. `str.isdigit` also accepts non-ASCII digits, some of which `int()` then rejects. A repeated query parameter is modelled as its one visible value.
- The `if not user` branch of `get_current_user` is not modelled: a user record is always truthy, so that branch is unreachable.
- Settings left unset (`None`) are not modelled: the two lifetimes are integers.
- User CRUD, word selection, route registration and the settings loader are outside the authentication core.

## Findings

| source | as written | input that shows it | evidently intended | confidence | as-written member | corrected member |
|---|---|---|---|---|---|---|
| app/services/auth.py:27 | the header fallback derives `X-AccessToken` and `X-RefreshToken` | a client without cookies that echoes the `X-Access-Token` header the login response carried | read the `X-Access-Token` and `X-Refresh-Token` headers that issuance writes | high, not executed | AuthService.HeaderClientNotFound | AuthService.HeaderClientFoundFixed |
| app/depends/auth_dep.py:15 | verification is asked for the plain `Enum` member `TokenType.ACCESS_TOKEN`, which never equals the string claim `"access"` | the access token a login has just issued | ask for kind `"access"` (and `"refresh"` at line 35) | high, not executed | AuthDeps.FreshLoginRefused | AuthDeps.FreshLoginAcceptedFixed |
| app/services/auth.py:97-106 | refresh never checks the `type` claim | an access token placed in the `refresh_token` cookie | accept only refresh tokens | medium, not executed | AuthService.RefreshAcceptsAccessToken | AuthService.RefreshTokensFixed |
| app/services/auth.py:108-109 | the session row is dereferenced before the `not user_session` check | a valid refresh token whose `sid` names no session | answer `SessionNotValid` | high, not executed | AuthService.RefreshAbsentSessionCrashes | AuthService.RefreshFixedNeverDereferencesNone |
| app/services/auth.py:55-56 | the handler of a failed decode logs `payload`, which is unbound there, so it raises instead of `NoJwtException` | any token text that is not a well-formed signed token | answer `NoJwt` | high, not executed | AuthService.VerifyMalformedCrashes | AuthService.VerifyTokenAndSessionFixed |
| app/crud/base.py:87 | `update` calls `scalar_one_or_none()` on the result of an UPDATE statement without RETURNING | a logout naming an active session | return the row count, or nothing, without reading a row from the result | low, not executed | AuthService.LogoutAsWrittenKeepsSessionLive | Dao.Update |
| app/crud/base.py:87 | the same read, reached from the revocation in refresh at app/services/auth.py:128 | a refresh of a live session with a valid refresh token | return the row count, or nothing, without reading a row from the result | low, not executed | AuthService.RefreshAsWrittenKeepsSessionLive | AuthService.RefreshRotates |
| app/utils/security.py:30 | the access lifetime is `timedelta(days=ACCESS_EXPIRE_MINUTES)` | `ACCESS_EXPIRE_MINUTES = 15`, `REFRESH_EXPIRE_DAYS = 7`: the access token lives 15 days, the refresh token 7 | `timedelta(minutes=ACCESS_EXPIRE_MINUTES)` | high, not executed | Tokens.AccessOutlivesRefresh | Tokens.IntendedAccessExpiresFirst |
| app/services/auth.py:137-144 | the successor session takes the refresh request's user agent | a user with active sessions on agents A and B refreshes the A session from agent B, then logs in from B | keep one active session per user and agent, with the successor taking over the agent of the session it replaces | low, not executed | Lifecycle.AgentSwitchBreaksLogin | Lifecycle.RepairedLoginNeverMeetsTwo |

=== FILE: admin_deps.dfy ===
/**
  The administrator gate: the `admin_telegram_id` query parameter must be a
  decimal numeral naming a user whose administrator flag is set.
 */
module AdminDeps {
  import opened Wrappers
  import opened Text
  import Users

  const AdminParam: string := "admin_telegram_id"

  datatype AdminError =
    | MissingAdminId    // the parameter is absent or empty
    | IncorrectAdminId  // the parameter is not a run of digits
    | NotAdmin          // no administrator holds that Telegram identity

  function AdminStatus(e: AdminError): int {
    match e
    case MissingAdminId => 400
    case IncorrectAdminId => 400
    case NotAdmin => 401
  }

  /** Some administrator holds Telegram identity `telegramId`. */
  predicate IsAdmin(users: seq<Users.User>, telegramId: int) {
    exists u :: u in users && u.telegramId == telegramId && u.isAdmin
  }

  /** `check_admin_privileges`: success is the absence of an error. */
  function CheckAdminPrivileges(users: seq<Users.User>, query: map<string, string>): (r: Result<(), AdminError>)
    ensures r == Failure(MissingAdminId) <==> AdminParam !in query || |query[AdminParam]| == 0
    ensures r == Failure(IncorrectAdminId) <==>
      AdminParam in query && |query[AdminParam]| > 0 && !AllDigits(query[AdminParam])
    ensures r.Success? <==>
      AdminParam in query && IsDigitString(query[AdminParam])
      && IsAdmin(users, DigitsValue(query[AdminParam]))
  {
    if AdminParam !in query || |query[AdminParam]| == 0 then Failure(MissingAdminId)
    else
      var text := query[AdminParam];
      if !AllDigits(text) then Failure(IncorrectAdminId)
      else match Users.FindAdminByTelegramId(users, DigitsValue(text))
        case None => Failure(NotAdmin)
        case Some(_) => Success(())
  }

  /** An administrator presenting their identity as `str(telegram_id)` passes the gate. */
  lemma AdminPasses(users: seq<Users.User>, u: Users.User, query: map<string, string>)
    requires u in users && u.isAdmin && u.telegramId >= 0
    requires AdminParam in query && query[AdminParam] == NatToString(u.telegramId)
    ensures CheckAdminPrivileges(users, query) == Success(())
  {
    NatToStringRoundTrip(u.telegramId);
  }

  /** A user without the flag is refused, whatever spelling of their identity is given. */
  lemma NonAdminRefused(users: seq<Users.User>, u: Users.User, query: map<string, string>)
    requires Users.WellFormed(users) && u in users && !u.isAdmin
    requires AdminParam in query && IsDigitString(query[AdminParam])
    requires DigitsValue(query[AdminParam]) == u.telegramId
    ensures CheckAdminPrivileges(users, query) == Failure(NotAdmin)
  {
    forall v | v in users && v.telegramId == u.telegramId
      ensures !v.isAdmin
    {
      var i :| 0 <= i < |users| && users[i] == u;
      var j :| 0 <= j < |users| && users[j] == v;
      assert i == j;
    }
  }
}

=== FILE: auth.dfy ===
/**
  The authentication service: finding the token in a request, verifying a token
  against its session, rotating a session with its refresh token, and logout.
 */
module AuthService {
  import opened Wrappers
  import opened Text
  import opened Tokens
  import opened Web
  import Users
  import Dao
  import opened Sessions
  import opened Store
  import opened Security

  // ---------------------------------------------------------------- token lookup

  /** `_get_token_from_request`: a non-empty cookie first, then the derived header. */
  function GetTokenFromRequest(req: Request, tokenName: string): (r: Result<Token, AuthError>)
    ensures r.Failure? ==> r.error == TokenNoFound
    ensures r.Success? ==> Present(r.value)
    ensures Cookie(req, tokenName).Some? && Present(Cookie(req, tokenName).value) ==>
      r == Success(Cookie(req, tokenName).value)
    ensures r.Success? ==>
      Cookie(req, tokenName) == Some(r.value) || Header(req, DerivedHeaderName(tokenName)) == Some(r.value)
    ensures r.Failure? <==>
      && !(Cookie(req, tokenName).Some? && Present(Cookie(req, tokenName).value))
      && !(Header(req, DerivedHeaderName(tokenName)).Some? && Present(Header(req, DerivedHeaderName(tokenName)).value))
  {
    var cookie := Cookie(req, tokenName);
    if cookie.Some? && Present(cookie.value) then Success(cookie.value)
    else
      var header := Header(req, DerivedHeaderName(tokenName));
      if header.Some? && Present(header.value) then Success(header.value)
      else Failure(TokenNoFound)
  }

  /** The response header issuance writes for each token name. */
  function IssuedHeaderName(tokenName: string): string {
    if tokenName == AccessCookie then AccessHeader
    else if tokenName == RefreshCookie then RefreshHeader
    else DerivedHeaderName(tokenName)
  }

  /** The lookup reading the headers issuance actually writes. */
  function GetTokenFromRequestFixed(req: Request, tokenName: string): (r: Result<Token, AuthError>)
    ensures r.Failure? ==> r.error == TokenNoFound
    ensures r.Success? ==> Present(r.value)
    ensures Cookie(req, tokenName).Some? && Present(Cookie(req, tokenName).value) ==>
      r == Success(Cookie(req, tokenName).value)
    ensures r.Success? ==>
      Cookie(req, tokenName) == Some(r.value) || Header(req, IssuedHeaderName(tokenName)) == Some(r.value)
    ensures r.Failure? <==>
      && !(Cookie(req, tokenName).Some? && Present(Cookie(req, tokenName).value))
      && !(Header(req, IssuedHeaderName(tokenName)).Some? && Present(Header(req, IssuedHeaderName(tokenName)).value))
  {
    var cookie := Cookie(req, tokenName);
    if cookie.Some? && Present(cookie.value) then Success(cookie.value)
    else
      var header := Header(req, IssuedHeaderName(tokenName));
      if header.Some? && Present(header.value) then Success(header.value)
      else Failure(TokenNoFound)
  }

  /** A client that stores the response cookies presents its tokens successfully. */
  lemma CookieClientFindsTokens(i: Issued, userAgent: string)
    requires Present(i.accessToken) && Present(i.refreshToken)
    ensures GetTokenFromRequest(CookieClient(i, userAgent), AccessCookie) == Success(i.accessToken)
    ensures GetTokenFromRequest(CookieClient(i, userAgent), RefreshCookie) == Success(i.refreshToken)
  {
  }

  /** A name with no '-' in it never derives either issued header name. */
  lemma DerivedMissesIssued(tokenName: string)
    requires '-' !in tokenName
    ensures Lower(DerivedHeaderName(tokenName)) != Lower(AccessHeader)
    ensures Lower(DerivedHeaderName(tokenName)) != Lower(RefreshHeader)
  {
    DerivedHeaderHasOneDash(tokenName);
    var a := Lower(AccessHeader);
    var r := Lower(RefreshHeader);
    assert a[2..][6] == '-';
    assert r[2..][7] == '-';
  }

  /** A header-only client is refused for every token name without a '-' in it. */
  lemma HeaderClientMisses(i: Issued, userAgent: string, tokenName: string)
    requires '-' !in tokenName
    ensures GetTokenFromRequest(HeaderClient(i, userAgent), tokenName) == Failure(TokenNoFound)
  {
    DerivedMissesIssued(tokenName);
  }

  /**
    A client that echoes the issued token headers and keeps no cookies is
    refused: the lookup asks for `X-AccessToken`, issuance wrote `X-Access-Token`.
   */
  lemma HeaderClientNotFound(i: Issued, userAgent: string)
    ensures GetTokenFromRequest(HeaderClient(i, userAgent), AccessCookie) == Failure(TokenNoFound)
    ensures GetTokenFromRequest(HeaderClient(i, userAgent), RefreshCookie) == Failure(TokenNoFound)
  {
    NoDashInCookieNames();
    HeaderClientMisses(i, userAgent, AccessCookie);
    HeaderClientMisses(i, userAgent, RefreshCookie);
  }

  lemma NoDashInCookieNames()
    ensures '-' !in AccessCookie && '-' !in RefreshCookie
  {
  }

  /** With the lookup reading the issued header names, the same client is served. */
  lemma HeaderClientFoundFixed(i: Issued, userAgent: string)
    requires Present(i.accessToken) && Present(i.refreshToken)
    ensures GetTokenFromRequestFixed(HeaderClient(i, userAgent), AccessCookie) == Success(i.accessToken)
    ensures GetTokenFromRequestFixed(HeaderClient(i, userAgent), RefreshCookie) == Success(i.refreshToken)
  {
    assert |Lower(AccessHeader)| != |Lower(RefreshHeader)|;
  }

  // ---------------------------------------------------------------- verification

  /** The members of the `TokenType` enumeration. */
  datatype TokenTypeMember = AccessTokenMember | RefreshTokenMember

  function MemberValue(m: TokenTypeMember): string {
    match m
    case AccessTokenMember => "access-token"
    case RefreshTokenMember => "refresh-token"
  }

  /**
    The `token_type` argument of verification: a string, or a member of the
    plain `Enum` `TokenType`, which compares unequal to every string.
   */
  datatype ExpectedKind = KindText(text: string) | KindMember(member: TokenTypeMember)

  /** `payload.get("type") == token_type`. */
  predicate KindMatches(kind: Option<string>, expected: ExpectedKind) {
    expected.KindText? && kind == Some(expected.text)
  }

  /** Python truthiness of an optional text claim. */
  predicate Truthy(v: Option<string>) {
    v.Some? && |v.value| > 0
  }

  /** The `exp` check after decoding: missing, zero, or in the past. */
  predicate ExpiryFails(c: Claims, now: int) {
    c.exp.None? || c.exp.value == 0 || c.exp.value < now
  }

  /** The session `sid` exists, is active and belongs to `user`. */
  predicate SessionBinds(t: SessionTable, sid: string, user: Users.User) {
    exists k :: 0 <= k < |t| && t[k].id == sid && t[k].isActive && t[k].userId == user.id
  }

  /** Verification once the token decoded: kind, expiry, claims, user, session, in that order. */
  function CheckClaims(db: Db, now: int, c: Claims, expected: ExpectedKind): (r: Result<Users.User, AuthError>)
    ensures !KindMatches(c.kind, expected) ==> r == Failure(NoJwt)
    ensures KindMatches(c.kind, expected) && ExpiryFails(c, now) ==> r == Failure(TokenExpired)
    ensures KindMatches(c.kind, expected) && !ExpiryFails(c, now) && !(Truthy(c.sub) && Truthy(c.sid)) ==>
      r == Failure(NoJwt)
    ensures r == Failure(UserNotFound) ==>
      ParseInt(c.sub.value).Some? && forall u :: u in db.users ==> u.telegramId != ParseInt(c.sub.value).value
    ensures
      (&& KindMatches(c.kind, expected) && !ExpiryFails(c, now) && Truthy(c.sub) && Truthy(c.sid)
       && ParseInt(c.sub.value).Some?
       && (forall u :: u in db.users ==> u.telegramId != ParseInt(c.sub.value).value)) ==>
      r == Failure(UserNotFound)
    ensures r == Failure(Forbidden) ==>
      ParseInt(c.sub.value).Some? && Users.FindByTelegramId(db.users, ParseInt(c.sub.value).value).Some?
      && !SessionBinds(db.sessions, c.sid.value, Users.FindByTelegramId(db.users, ParseInt(c.sub.value).value).value)
    ensures
      (&& UniqueIds(db.sessions)
       && KindMatches(c.kind, expected) && !ExpiryFails(c, now) && Truthy(c.sub) && Truthy(c.sid)
       && ParseInt(c.sub.value).Some? && Users.FindByTelegramId(db.users, ParseInt(c.sub.value).value).Some?
       && !SessionBinds(db.sessions, c.sid.value, Users.FindByTelegramId(db.users, ParseInt(c.sub.value).value).value)) ==>
      r == Failure(Forbidden)
    ensures r.Success? ==>
      && KindMatches(c.kind, expected) && !ExpiryFails(c, now) && Truthy(c.sub) && Truthy(c.sid)
      && r.value in db.users && ParseInt(c.sub.value) == Some(r.value.telegramId)
      && SessionBinds(db.sessions, c.sid.value, r.value)
  {
    if !KindMatches(c.kind, expected) then Failure(NoJwt)
    else if ExpiryFails(c, now) then Failure(TokenExpired)
    else if !Truthy(c.sub) || !Truthy(c.sid) then Failure(NoJwt)
    else match ParseInt(c.sub.value)
      case None => Failure(Crash(BadIntLiteral))
      case Some(tg) =>
        match Users.FindByTelegramId(db.users, tg)
        case None => Failure(UserNotFound)
        case Some(user) =>
          FindByIdNeverMultiple(db.sessions, c.sid.value);
          match FindSessionById(db.sessions, c.sid.value)
          case Failure(_) => Failure(Crash(MultipleRows))
          case Success(None) => Failure(Forbidden)
          case Success(Some(s)) =>
            if !s.isActive || s.userId != user.id then
              assert !SessionBinds(db.sessions, c.sid.value, user) by {
                assert SelectSessions(db.sessions, ById(c.sid.value)) == [s];
                forall k | 0 <= k < |db.sessions| && db.sessions[k].id == c.sid.value
                  ensures db.sessions[k] == s
                {
                  assert db.sessions[k] in SelectSessions(db.sessions, ById(c.sid.value));
                }
              }
              Failure(Forbidden)
            else Success(user)
  }

  /** `verify_token_and_session`. */
  function VerifyTokenAndSession(db: Db, now: int, token: Token, expected: ExpectedKind): (r: Result<Users.User, AuthError>)
    ensures Decode(token, now).SignatureExpired? ==> r == Failure(TokenExpired)
    ensures Decode(token, now).Malformed? ==> r == Failure(Crash(UnboundPayload))
    ensures r.Success? ==>
      && token.Signed? && !ExpiryFails(token.claims, now) && KindMatches(token.claims.kind, expected)
      && Truthy(token.claims.sub) && Truthy(token.claims.sid)
      && r.value in db.users && ParseInt(token.claims.sub.value) == Some(r.value.telegramId)
      && SessionBinds(db.sessions, token.claims.sid.value, r.value)
  {
    match Decode(token, now)
    case SignatureExpired => Failure(TokenExpired)
    case Malformed => Failure(Crash(UnboundPayload))
    case Decoded(c) => CheckClaims(db, now, c, expected)
  }

  /** Verification with the failed-decode branch raising the error it was written to raise. */
  function VerifyTokenAndSessionFixed(db: Db, now: int, token: Token, expected: ExpectedKind): (r: Result<Users.User, AuthError>)
    ensures Decode(token, now).Malformed? ==> r == Failure(NoJwt)
    ensures r.Failure? ==> !r.error.Crash? || r.error.fault != UnboundPayload
    ensures !Decode(token, now).Malformed? ==> r == VerifyTokenAndSession(db, now, token, expected)
  {
    if Decode(token, now).Malformed? then Failure(NoJwt)
    else VerifyTokenAndSession(db, now, token, expected)
  }

  /** A token that is not one of ours crashes verification instead of raising `NoJwt`. */
  lemma VerifyMalformedCrashes(db: Db, now: int, text: string, expected: ExpectedKind)
    ensures VerifyTokenAndSession(db, now, Unsigned(text), expected) == Failure(Crash(UnboundPayload))
    ensures VerifyTokenAndSessionFixed(db, now, Unsigned(text), expected) == Failure(NoJwt)
  {
  }

  /**
    Verification against a consistent store accepts a token exactly when its
    kind matches, it has not expired, its subject names a user and its session
    is active and owned by that user; the user returned is that user.
   */
  lemma VerifyAcceptsExactly(db: Db, now: int, c: Claims, expected: ExpectedKind, user: Users.User)
    requires Consistent(db)
    requires user in db.users && Truthy(c.sub) && ParseInt(c.sub.value) == Some(user.telegramId)
    ensures VerifyTokenAndSession(db, now, Signed(c), expected) == Success(user) <==>
      && KindMatches(c.kind, expected) && !ExpiryFails(c, now) && Truthy(c.sid)
      && SessionBinds(db.sessions, c.sid.value, user)
  {
    Users.FindByTelegramIdExact(db.users, user);
    if KindMatches(c.kind, expected) && !ExpiryFails(c, now) && Truthy(c.sid) && SessionBinds(db.sessions, c.sid.value, user) {
      var k :| 0 <= k < |db.sessions| && db.sessions[k].id == c.sid.value && db.sessions[k].isActive && db.sessions[k].userId == user.id;
      FindByIdLocates(db.sessions, k);
    }
  }

  /** Session ids are generated UUIDs: never the empty text. */
  predicate NamedSessions(t: SessionTable) {
    forall k :: 0 <= k < |t| ==> |t[k].id| > 0
  }

  /**
    The access token a login hands out passes verification against the state the
    login produced, until it expires, when verification asks for kind `"access"`.
   */
  lemma IssuedAccessTokenVerifies(db: Db, cfg: Config, now: int, later: int, user: Users.User, req: Request, freshId: string)
    requires Consistent(db) && user in db.users
    requires NamedSessions(db.sessions) && |freshId| > 0
    requires IssueTokens(db, cfg, now, user, req, freshId).result.Success?
    requires later <= now + AccessLifetime(cfg) && 0 < now + AccessLifetime(cfg)
    ensures
      var o := IssueTokens(db, cfg, now, user, req, freshId);
      VerifyTokenAndSession(o.db, later, o.result.value.accessToken, KindText(AccessKind)) == Success(user)
  {
    var o := IssueTokens(db, cfg, now, user, req, freshId);
    IssuedSessionIsTheActiveOne(db, cfg, now, user, req, freshId);
    var s := ActiveSessions(o.db.sessions, user.id, req.userAgent)[0];
    assert s in ActiveSessions(o.db.sessions, user.id, req.userAgent);
    var k :| 0 <= k < |o.db.sessions| && o.db.sessions[k] == s;
    assert |s.id| > 0 by {
      if o.db == db {
        assert s in db.sessions;
      }
    }
    var c := o.result.value.accessToken.claims;
    assert c.sid == Some(s.id);
    assert SessionBinds(o.db.sessions, s.id, user);
    ParseIntRoundTrip(user.telegramId);
    IssueKeepsConsistent(db, cfg, now, user, req, freshId);
    VerifyAcceptsExactly(o.db, later, c, KindText(AccessKind), user);
  }

  /** Issuance keeps the database constraints. */
  lemma IssueKeepsConsistent(db: Db, cfg: Config, now: int, user: Users.User, req: Request, freshId: string)
    requires Consistent(db) && user in db.users
    ensures Consistent(IssueTokens(db, cfg, now, user, req, freshId).db)
  {
    var o := IssueTokens(db, cfg, now, user, req, freshId);
    if o.db != db {
      AddKeepsUniqueIds(db.sessions, CreateSession(cfg, freshId, req.userAgent, user.id, now));
      Users.FindByIdExact(db.users, user);
    }
  }

  // ---------------------------------------------------------------- rotation

  /** The session row a lookup by id found, when it found exactly one. */
  function SessionNamed(t: SessionTable, sid: string): (r: Option<Session>)
    ensures r.Some? ==> r.value in t && r.value.id == sid
    ensures r.None? <==> FindSessionById(t, sid).Failure? || FindSessionById(t, sid).value.None?
  {
    match FindSessionById(t, sid)
    case Success(Some(s)) => Some(s)
    case _ => None
  }

  /**
    `after` is `before` with the valid session `s` revoked and a successor for
    the same user appended, under the unused id `freshId` and user agent `userAgent`.
   */
  predicate RotatedFrom(before: Db, after: Db, cfg: Config, now: int, s: Session, userAgent: string, freshId: string) {
    && s in before.sessions && s.isActive && s.expiresAt >= now
    && Users.FindById(before.users, s.userId).Some?
    && !IdTaken(Deactivate(before.sessions, ActiveById(s.id)), freshId)
    && after == before.(sessions := Deactivate(before.sessions, ActiveById(s.id)) + [CreateSession(cfg, freshId, userAgent, s.userId, now)])
  }

  /** Validating the found session, revoking it and opening its successor. */
  function RotateFound(db: Db, cfg: Config, now: int, userAgent: string, sub: string, s: Session, freshId: string): (o: Outcome<Issued>)
    requires s in db.sessions
    ensures o.result.Failure? ==> o.db == db
    ensures !s.isActive || s.expiresAt < now ==> o.result == Failure(SessionNotValid)
    ensures
      (&& s.isActive && s.expiresAt >= now && Users.FindById(db.users, s.userId).Some?
       && ParseInt(sub).Some? && ParseInt(sub) != Some(Users.FindById(db.users, s.userId).value.telegramId)) ==>
      o.result == Failure(SessionNotValid)
    ensures o.result.Success? ==>
      && RotatedFrom(db, o.db, cfg, now, s, userAgent, freshId)
      && ParseInt(sub) == Some(Users.FindById(db.users, s.userId).value.telegramId)
      && o.result.value == Mint(cfg, now, sub, freshId)
  {
    if !s.isActive || s.expiresAt < now then Fail(db, SessionNotValid)
    else match Users.FindById(db.users, s.userId)
      case None => Fail(db, Crash(NoneDereference))
      case Some(owner) =>
        match ParseInt(sub)
        case None => Fail(db, Crash(BadIntLiteral))
        case Some(tg) =>
          if owner.telegramId != tg then Fail(db, SessionNotValid)
          else
            match AddSession(Deactivate(db.sessions, ActiveById(s.id)), CreateSession(cfg, freshId, userAgent, s.userId, now))
            case Failure(_) => Fail(db, Crash(DuplicateSessionId))
            case Success(t) => Outcome(db.(sessions := t), Success(Mint(cfg, now, sub, freshId)))
  }

  /** The refresh flow once the refresh token decoded: claims, then the session row. */
  function Rotate(db: Db, cfg: Config, now: int, userAgent: string, c: Claims, freshId: string): (o: Outcome<Issued>)
    ensures o.result.Failure? ==> o.db == db
    ensures !(Truthy(c.sub) && Truthy(c.sid)) ==> o.result == Failure(InvalidTokenFormat)
    ensures Truthy(c.sub) && Truthy(c.sid) && FindSessionById(db.sessions, c.sid.value) == Success(None) ==>
      o.result == Failure(Crash(NoneDereference))
    ensures o.result.Success? ==>
      && Truthy(c.sub) && Truthy(c.sid) && SessionNamed(db.sessions, c.sid.value).Some?
      && RotatedFrom(db, o.db, cfg, now, SessionNamed(db.sessions, c.sid.value).value, userAgent, freshId)
      && o.result.value == Mint(cfg, now, c.sub.value, freshId)
  {
    if !Truthy(c.sub) || !Truthy(c.sid) then Fail(db, InvalidTokenFormat)
    else match FindSessionById(db.sessions, c.sid.value)
      case Failure(_) => Fail(db, Crash(MultipleRows))
      case Success(None) => Fail(db, Crash(NoneDereference))
      case Success(Some(s)) => RotateFound(db, cfg, now, userAgent, c.sub.value, s, freshId)
  }

  /** `refresh_tokens`: only the `refresh_token` cookie is read, and its `type` is never looked at. */
  function RefreshTokens(db: Db, cfg: Config, now: int, req: Request, freshId: string): (o: Outcome<Issued>)
    ensures o.result.Failure? ==> o.db == db
    ensures !(Cookie(req, RefreshCookie).Some? && Present(Cookie(req, RefreshCookie).value)) ==>
      o.result == Failure(TokenExpired)
    ensures
      (Cookie(req, RefreshCookie).Some? && Present(Cookie(req, RefreshCookie).value)
       && !Decode(Cookie(req, RefreshCookie).value, now).Decoded?) ==> o.result == Failure(NoJwt)
    ensures o.result.Success? ==>
      && Cookie(req, RefreshCookie).Some? && Decode(Cookie(req, RefreshCookie).value, now).Decoded?
      && var c := Cookie(req, RefreshCookie).value.claims;
      && Truthy(c.sub) && Truthy(c.sid) && SessionNamed(db.sessions, c.sid.value).Some?
      && RotatedFrom(db, o.db, cfg, now, SessionNamed(db.sessions, c.sid.value).value, req.userAgent, freshId)
  {
    var cookie := Cookie(req, RefreshCookie);
    if cookie.None? || !Present(cookie.value) then Fail(db, TokenExpired)
    else match Decode(cookie.value, now)
      case Decoded(c) => Rotate(db, cfg, now, req.userAgent, c, freshId)
      case _ => Fail(db, NoJwt)
  }

  /** Every session row other than the revoked one keeps its value; the revoked one only loses `is_active`. */
  lemma DeactivateOnlyTarget(t: SessionTable, sid: string)
    ensures |Deactivate(t, ActiveById(sid))| == |t|
    ensures forall k :: 0 <= k < |t| && t[k].id != sid ==> Deactivate(t, ActiveById(sid))[k] == t[k]
    ensures forall k :: 0 <= k < |t| && t[k].id == sid ==> Deactivate(t, ActiveById(sid))[k] == Deactivated(t[k])
  {
  }

  /**
    A successful rotation revokes the presented session, opens exactly one new
    active session under a new id for the same user and the caller's user agent,
    binds the new tokens to it with the original subject, and touches nothing else.
   */
  lemma RefreshRotates(db: Db, cfg: Config, now: int, req: Request, freshId: string, c: Claims, prev: Session)
    requires UniqueIds(db.sessions)
    requires Cookie(req, RefreshCookie) == Some(Signed(c)) && Decode(Signed(c), now).Decoded?
    requires c.sid.Some? && prev in db.sessions && prev.id == c.sid.value
    requires RefreshTokens(db, cfg, now, req, freshId).result.Success?
    ensures
      var o := RefreshTokens(db, cfg, now, req, freshId);
      && prev.isActive && prev.expiresAt >= now
      && freshId != prev.id
      && |o.db.sessions| == |db.sessions| + 1
      && o.db.users == db.users
      && (forall k :: 0 <= k < |db.sessions| && db.sessions[k].id != prev.id ==> o.db.sessions[k] == db.sessions[k])
      && (forall k :: 0 <= k < |db.sessions| && db.sessions[k].id == prev.id ==> o.db.sessions[k] == Deactivated(prev))
      && o.db.sessions[|db.sessions|] == CreateSession(cfg, freshId, req.userAgent, prev.userId, now)
      && o.result.value == Mint(cfg, now, c.sub.value, freshId)
      && UniqueIds(o.db.sessions)
  {
    var i :| 0 <= i < |db.sessions| && db.sessions[i] == prev;
    FindByIdLocates(db.sessions, i);
    var t := Deactivate(db.sessions, ActiveById(prev.id));
    DeactivateOnlyTarget(db.sessions, prev.id);
    var next := CreateSession(cfg, freshId, req.userAgent, prev.userId, now);
    assert t[i].id == prev.id;
    assert !IdTaken(t, freshId);
    assert UniqueIds(t);
    AddKeepsUniqueIds(t, next);
  }

  /** After a successful rotation, presenting the same refresh token again fails with `SessionNotValid`. */
  lemma RefreshIsSingleUse(db: Db, cfg: Config, now: int, later: int, req: Request, freshId: string, again: Request, freshId2: string)
    requires UniqueIds(db.sessions)
    requires RefreshTokens(db, cfg, now, req, freshId).result.Success?
    requires Cookie(again, RefreshCookie) == Cookie(req, RefreshCookie)
    requires Decode(Cookie(req, RefreshCookie).value, later).Decoded?
    ensures RefreshTokens(RefreshTokens(db, cfg, now, req, freshId).db, cfg, later, again, freshId2).result
      == Failure(SessionNotValid)
  {
    var c := Cookie(req, RefreshCookie).value.claims;
    var found := FindSessionById(db.sessions, c.sid.value);
    var prev := found.value.value;
    RefreshRotates(db, cfg, now, req, freshId, c, prev);
    var o := RefreshTokens(db, cfg, now, req, freshId);
    var i :| 0 <= i < |db.sessions| && db.sessions[i] == prev;
    FindByIdLocates(o.db.sessions, i);
  }

  /**
    `refresh_tokens` with the row read that `update` performs after revoking the
    presented session. Every step before the revocation is as in `RefreshTokens`;
    when the read raises, the request rolls back and no successor is opened.
   */
  function RefreshWithUpdateRead(db: Db, cfg: Config, now: int, req: Request, freshId: string, shape: Dao.UpdateReturns): (o: Outcome<Issued>)
    ensures o.result.Failure? ==> o.db == db
    ensures shape == Dao.NoRows ==> o.result.Failure?
    ensures shape == Dao.NoRows && RefreshTokens(db, cfg, now, req, freshId).result.Success? ==>
      o.result == Failure(Crash(UpdateRowRead))
    ensures shape == Dao.UpdatedRows ==> o == RefreshTokens(db, cfg, now, req, freshId)
    ensures o.result != Failure(Crash(UpdateRowRead)) ==> o == RefreshTokens(db, cfg, now, req, freshId)
  {
    var cookie := Cookie(req, RefreshCookie);
    if cookie.None? || !Present(cookie.value) then Fail(db, TokenExpired)
    else match Decode(cookie.value, now)
      case Decoded(c) =>
        if !Truthy(c.sub) || !Truthy(c.sid) then Fail(db, InvalidTokenFormat)
        else (match FindSessionById(db.sessions, c.sid.value)
          case Failure(_) => Fail(db, Crash(MultipleRows))
          case Success(None) => Fail(db, Crash(NoneDereference))
          case Success(Some(s)) =>
            if !s.isActive || s.expiresAt < now then Fail(db, SessionNotValid)
            else (match Users.FindById(db.users, s.userId)
              case None => Fail(db, Crash(NoneDereference))
              case Some(owner) =>
                match ParseInt(c.sub.value)
                case None => Fail(db, Crash(BadIntLiteral))
                case Some(tg) =>
                  if owner.telegramId != tg then Fail(db, SessionNotValid)
                  else
                    DeactivateReadAfterLookup(db.sessions, s.id);
                    match DeactivateRead(db.sessions, ActiveById(s.id), shape)
                    case Failure(e) => Fail(db, if e == Dao.RowlessResult then Crash(UpdateRowRead) else Crash(MultipleRows))
                    case Success(t) =>
                      match AddSession(t, CreateSession(cfg, freshId, req.userAgent, s.userId, now))
                      case Failure(_) => Fail(db, Crash(DuplicateSessionId))
                      case Success(t') => Outcome(db.(sessions := t'), Success(Mint(cfg, now, c.sub.value, freshId)))))
      case _ => Fail(db, NoJwt)
  }

  /**
    When the UPDATE's result carries no rows, refreshing a live session fails with
    a server error: the presented session stays active and no successor is
    opened. When `update` returns, the same refresh revokes it and opens one.
   */
  lemma RefreshAsWrittenKeepsSessionLive(db: Db, cfg: Config, now: int, req: Request, freshId: string, c: Claims, k: int)
    requires UniqueIds(db.sessions) && 0 <= k < |db.sessions|
    requires Cookie(req, RefreshCookie) == Some(Signed(c)) && Decode(Signed(c), now).Decoded?
    requires c.sid == Some(db.sessions[k].id)
    requires RefreshTokens(db, cfg, now, req, freshId).result.Success?
    ensures RefreshWithUpdateRead(db, cfg, now, req, freshId, Dao.NoRows).result == Failure(Crash(UpdateRowRead))
    ensures RefreshWithUpdateRead(db, cfg, now, req, freshId, Dao.NoRows).db.sessions == db.sessions
    ensures db.sessions[k].isActive
    ensures |RefreshTokens(db, cfg, now, req, freshId).db.sessions| == |db.sessions| + 1
    ensures RefreshTokens(db, cfg, now, req, freshId).db.sessions[k] == Deactivated(db.sessions[k])
    ensures freshId != db.sessions[k].id && RefreshTokens(db, cfg, now, req, freshId).db.sessions[|db.sessions|].isActive
  {
  }

  /**
    The rotation with its omissions repaired: a missing session is refused, and
    the successor keeps the user agent of the session it replaces.
   */
  function RotateFixed(db: Db, cfg: Config, now: int, c: Claims, freshId: string): (o: Outcome<Issued>)
    ensures o.result.Failure? ==> o.db == db
    ensures !(Truthy(c.sub) && Truthy(c.sid)) ==> o.result == Failure(InvalidTokenFormat)
    ensures Truthy(c.sub) && Truthy(c.sid) && FindSessionById(db.sessions, c.sid.value) == Success(None) ==>
      o.result == Failure(SessionNotValid)
    ensures o.result.Success? ==>
      && Truthy(c.sub) && Truthy(c.sid) && SessionNamed(db.sessions, c.sid.value).Some?
      && var s := SessionNamed(db.sessions, c.sid.value).value;
      && RotatedFrom(db, o.db, cfg, now, s, s.userAgent, freshId)
      && o.result.value == Mint(cfg, now, c.sub.value, freshId)
  {
    if !Truthy(c.sub) || !Truthy(c.sid) then Fail(db, InvalidTokenFormat)
    else match FindSessionById(db.sessions, c.sid.value)
      case Failure(_) => Fail(db, Crash(MultipleRows))
      case Success(None) => Fail(db, SessionNotValid)
      case Success(Some(s)) => RotateFound(db, cfg, now, s.userAgent, c.sub.value, s, freshId)
  }

  /** The refresh flow with the `type` claim checked and the repaired rotation. */
  function RefreshTokensFixed(db: Db, cfg: Config, now: int, req: Request, freshId: string): (o: Outcome<Issued>)
    ensures o.result.Failure? ==> o.db == db
    ensures o.result.Success? ==>
      && Cookie(req, RefreshCookie).Some? && Decode(Cookie(req, RefreshCookie).value, now).Decoded?
      && var c := Cookie(req, RefreshCookie).value.claims;
      && c.kind == Some(RefreshKind)
      && Truthy(c.sub) && Truthy(c.sid) && SessionNamed(db.sessions, c.sid.value).Some?
      && var s := SessionNamed(db.sessions, c.sid.value).value;
      && RotatedFrom(db, o.db, cfg, now, s, s.userAgent, freshId)
  {
    var cookie := Cookie(req, RefreshCookie);
    if cookie.None? || !Present(cookie.value) then Fail(db, TokenExpired)
    else match Decode(cookie.value, now)
      case Decoded(c) =>
        if c.kind != Some(RefreshKind) then Fail(db, NoJwt)
        else RotateFixed(db, cfg, now, c, freshId)
      case _ => Fail(db, NoJwt)
  }

  /** Under the database constraints, the repaired rotation never dereferences a missing row. */
  lemma RefreshFixedNeverDereferencesNone(db: Db, cfg: Config, now: int, req: Request, freshId: string)
    requires Consistent(db)
    ensures RefreshTokensFixed(db, cfg, now, req, freshId).result != Failure(Crash(NoneDereference))
  {
    var cookie := Cookie(req, RefreshCookie);
    if cookie.Some? && Present(cookie.value) && Decode(cookie.value, now).Decoded? {
      var c := Decode(cookie.value, now).claims;
      if Truthy(c.sub) && Truthy(c.sid) && FindSessionById(db.sessions, c.sid.value).Success?
        && FindSessionById(db.sessions, c.sid.value).value.Some? {
        var s := FindSessionById(db.sessions, c.sid.value).value.value;
        var k :| 0 <= k < |db.sessions| && db.sessions[k] == s;
        assert Users.FindById(db.users, db.sessions[k].userId).Some?;
      }
    }
  }

  /** A refresh token naming a session that does not exist crashes the rotation (the row is dereferenced first). */
  lemma RefreshAbsentSessionCrashes(db: Db, cfg: Config, now: int, req: Request, freshId: string, c: Claims)
    requires Cookie(req, RefreshCookie) == Some(Signed(c)) && Decode(Signed(c), now).Decoded?
    requires Truthy(c.sub) && Truthy(c.sid) && c.kind == Some(RefreshKind)
    requires forall s :: s in db.sessions ==> s.id != c.sid.value
    ensures RefreshTokens(db, cfg, now, req, freshId).result == Failure(Crash(NoneDereference))
    ensures RefreshTokensFixed(db, cfg, now, req, freshId).result == Failure(SessionNotValid)
  {
  }

  /**
    An access token placed in the refresh cookie rotates its session like a
    refresh token would; the repaired flow refuses it.
   */
  lemma RefreshAcceptsAccessToken(db: Db, cfg: Config, now: int, k: int, owner: Users.User, req: Request, freshId: string)
    requires UniqueIds(db.sessions) && 0 <= k < |db.sessions|
    requires db.sessions[k].isActive && db.sessions[k].expiresAt >= now && |db.sessions[k].id| > 0
    requires Users.FindById(db.users, db.sessions[k].userId) == Some(owner)
    requires AccessLifetime(cfg) >= 0 && !IdTaken(db.sessions, freshId)
    requires Cookie(req, RefreshCookie) == Some(Mint(cfg, now, IntToString(owner.telegramId), db.sessions[k].id).accessToken)
    ensures RefreshTokens(db, cfg, now, req, freshId).result.Success?
    ensures RefreshTokensFixed(db, cfg, now, req, freshId).result == Failure(NoJwt)
  {
    var s := db.sessions[k];
    FindByIdLocates(db.sessions, k);
    ParseIntRoundTrip(owner.telegramId);
    var t := Deactivate(db.sessions, ActiveById(s.id));
    assert !IdTaken(t, freshId) by {
      forall j | 0 <= j < |t| ensures t[j].id != freshId {
        assert t[j].id == db.sessions[j].id;
      }
    }
  }

  // ---------------------------------------------------------------- logout

  /** `logout`: decode without a guard, then revoke the `sid` row if it exists and is active. */
  function Logout(db: Db, now: int, token: Token): (o: Outcome<bool>)
    ensures o.result.Success? ==> o.result.value
    ensures !Decode(token, now).Decoded? ==> o == Fail(db, Crash(UncaughtJwtError))
    ensures o.db.users == db.users && |o.db.sessions| == |db.sessions|
    ensures forall k :: 0 <= k < |db.sessions| ==>
      o.db.sessions[k] == db.sessions[k] || o.db.sessions[k] == Deactivated(db.sessions[k])
    ensures forall k :: 0 <= k < |db.sessions| && o.db.sessions[k] != db.sessions[k] ==>
      Decode(token, now).Decoded? && Decode(token, now).claims.sid == Some(db.sessions[k].id)
  {
    match Decode(token, now)
    case Decoded(c) =>
      if c.sid.None? then Outcome(db, Success(true))
      else (match FindSessionById(db.sessions, c.sid.value)
        case Failure(_) => Fail(db, Crash(MultipleRows))
        case Success(None) => Outcome(db, Success(true))
        case Success(Some(_)) =>
          Outcome(db.(sessions := Deactivate(db.sessions, ActiveById(c.sid.value))), Success(true)))
    case _ => Fail(db, Crash(UncaughtJwtError))
  }

  /**
    `logout` with the row read that `update` performs after its statement. When
    the read raises, the request rolls back and the session stays as it was.
   */
  function LogoutWithUpdateRead(db: Db, now: int, token: Token, shape: Dao.UpdateReturns): (o: Outcome<bool>)
    ensures o.result.Failure? ==> o.db == db
    ensures shape == Dao.NoRows ==> o.db == db
    ensures
      (&& shape == Dao.NoRows
       && Decode(token, now).Decoded? && Decode(token, now).claims.sid.Some?
       && FindSessionById(db.sessions, Decode(token, now).claims.sid.value).Success?
       && FindSessionById(db.sessions, Decode(token, now).claims.sid.value).value.Some?) ==>
      o.result == Failure(Crash(UpdateRowRead))
    ensures shape == Dao.UpdatedRows ==> o == Logout(db, now, token)
    ensures o.result != Failure(Crash(UpdateRowRead)) ==> o == Logout(db, now, token)
  {
    match Decode(token, now)
    case Decoded(c) =>
      if c.sid.None? then Outcome(db, Success(true))
      else (match FindSessionById(db.sessions, c.sid.value)
        case Failure(_) => Fail(db, Crash(MultipleRows))
        case Success(None) => Outcome(db, Success(true))
        case Success(Some(_)) =>
          DeactivateReadAfterLookup(db.sessions, c.sid.value);
          (match DeactivateRead(db.sessions, ActiveById(c.sid.value), shape)
           case Failure(e) => Fail(db, if e == Dao.RowlessResult then Crash(UpdateRowRead) else Crash(MultipleRows))
           case Success(t) => Outcome(db.(sessions := t), Success(true))))
    case _ => Fail(db, Crash(UncaughtJwtError))
  }

  /**
    When the UPDATE's result carries no rows, logging out of a live session fails
    with a server error and leaves the session active; when `update` returns, the
    same logout revokes it.
   */
  lemma LogoutAsWrittenKeepsSessionLive(db: Db, now: int, c: Claims, k: int)
    requires UniqueIds(db.sessions) && 0 <= k < |db.sessions| && db.sessions[k].isActive
    requires c.sid == Some(db.sessions[k].id) && Decode(Signed(c), now).Decoded?
    ensures LogoutWithUpdateRead(db, now, Signed(c), Dao.NoRows).result == Failure(Crash(UpdateRowRead))
    ensures LogoutWithUpdateRead(db, now, Signed(c), Dao.NoRows).db.sessions[k].isActive
    ensures Logout(db, now, Signed(c)) == Outcome(db.(sessions := Deactivate(db.sessions, ActiveById(db.sessions[k].id))), Success(true))
    ensures !Logout(db, now, Signed(c)).db.sessions[k].isActive
  {
    FindByIdLocates(db.sessions, k);
  }

  /** With session ids unique, a token that decodes always logs out with `{"logout": True}`. */
  lemma LogoutAnswers(db: Db, now: int, token: Token)
    requires UniqueIds(db.sessions) && Decode(token, now).Decoded?
    ensures Logout(db, now, token).result == Success(true)
  {
    if Decode(token, now).claims.sid.Some? {
      FindByIdNeverMultiple(db.sessions, Decode(token, now).claims.sid.value);
    }
  }

  /** Revoking twice is revoking once. */
  lemma DeactivateIdempotent(t: SessionTable, f: SessionFilter)
    requires f.isActive == Some(true)
    ensures Deactivate(Deactivate(t, f), f) == Deactivate(t, f)
  {
  }

  lemma DeactivateKeepsIds(t: SessionTable, f: SessionFilter, sid: string)
    ensures FindSessionById(Deactivate(t, f), sid).Success? == FindSessionById(t, sid).Success?
    ensures FindSessionById(Deactivate(t, f), sid) == Success(None) <==> FindSessionById(t, sid) == Success(None)
  {
    var d := Deactivate(t, f);
    assert forall k :: 0 <= k < |t| ==> d[k].id == t[k].id;
    SelectIdsAgree(t, d, sid);
  }

  /** Two tables with the same ids row by row select equally many rows by id. */
  lemma {:induction false} SelectIdsAgree(t: SessionTable, d: SessionTable, sid: string)
    requires |t| == |d| && forall k :: 0 <= k < |t| ==> d[k].id == t[k].id
    ensures |SelectSessions(d, ById(sid))| == |SelectSessions(t, ById(sid))|
  {
    if |t| > 0 {
      assert forall k :: 0 <= k < |t[1..]| ==> d[1..][k].id == t[1..][k].id by {
        forall k | 0 <= k < |t[1..]| ensures d[1..][k].id == t[1..][k].id {
          assert d[1..][k] == d[k + 1] && t[1..][k] == t[k + 1];
        }
      }
      SelectIdsAgree(t[1..], d[1..], sid);
    }
  }

  /** Logout is idempotent: a second logout with the same token changes nothing and answers the same. */
  lemma LogoutIdempotent(db: Db, now: int, token: Token)
    ensures Logout(Logout(db, now, token).db, now, token) == Logout(db, now, token)
  {
    if Decode(token, now).Decoded? && Decode(token, now).claims.sid.Some? {
      var sid := Decode(token, now).claims.sid.value;
      DeactivateKeepsIds(db.sessions, ActiveById(sid), sid);
      DeactivateIdempotent(db.sessions, ActiveById(sid));
    }
  }

  /**
    Logout revokes the named session whatever the token's kind and subject:
    neither ownership nor token type is checked.
   */
  lemma LogoutIgnoresOwnerAndKind(db: Db, now: int, c: Claims, k: int)
    requires UniqueIds(db.sessions) && 0 <= k < |db.sessions|
    requires c.sid == Some(db.sessions[k].id) && Decode(Signed(c), now).Decoded?
    ensures Logout(db, now, Signed(c)).result == Success(true)
    ensures !Logout(db, now, Signed(c)).db.sessions[k].isActive
  {
    FindByIdLocates(db.sessions, k);
  }

  /** Logout of a session id that does not exist is a no-op answering `{"logout": True}`. */
  lemma LogoutAbsentIsNoop(db: Db, now: int, c: Claims)
    requires Decode(Signed(c), now).Decoded?
    requires c.sid.None? || forall s :: s in db.sessions ==> s.id != c.sid.value
    ensures Logout(db, now, Signed(c)) == Outcome(db, Success(true))
  {
  }
}

=== FILE: auth_deps.dfy ===
/**
  The route dependencies built on verification: the current user, and the two
  boolean token checks. Each passes a member of the `TokenType` enumeration
  where verification compares against the `type` claim, a string.
 */
module AuthDeps {
  import opened Wrappers
  import opened Text
  import opened Tokens
  import opened Web
  import Users
  import opened Sessions
  import opened Store
  import opened Security
  import opened AuthService

  /** `get_current_user`: the access token, verified as an `ACCESS_TOKEN` member. */
  function GetCurrentUser(db: Db, now: int, req: Request): (r: Result<Users.User, AuthError>)
    ensures r.Failure?
    ensures GetTokenFromRequest(req, AccessCookie).Failure? ==> r == Failure(TokenNoFound)
    ensures
      (GetTokenFromRequest(req, AccessCookie).Success?
       && Decode(GetTokenFromRequest(req, AccessCookie).value, now).Decoded?) ==> r == Failure(NoJwt)
  {
    match GetTokenFromRequest(req, AccessCookie)
    case Failure(e) => Failure(e)
    case Success(token) => VerifyTokenAndSession(db, now, token, KindMember(AccessTokenMember))
  }

  /** `check_access_token`: `True` when verification returns a user. */
  function CheckAccessToken(db: Db, now: int, req: Request): (r: Result<bool, AuthError>)
    ensures r.Failure?
    ensures
      (GetTokenFromRequest(req, AccessCookie).Success?
       && Decode(GetTokenFromRequest(req, AccessCookie).value, now).Decoded?) ==> r == Failure(NoJwt)
  {
    match GetTokenFromRequest(req, AccessCookie)
    case Failure(e) => Failure(e)
    case Success(token) =>
      match VerifyTokenAndSession(db, now, token, KindMember(AccessTokenMember))
      case Failure(e) => Failure(e)
      case Success(_) => Success(true)
  }

  /** `check_refresh_token`: the refresh token, verified as a `REFRESH_TOKEN` member. */
  function CheckRefreshToken(db: Db, now: int, req: Request): (r: Result<bool, AuthError>)
    ensures r.Failure?
    ensures
      (GetTokenFromRequest(req, RefreshCookie).Success?
       && Decode(GetTokenFromRequest(req, RefreshCookie).value, now).Decoded?) ==> r == Failure(NoJwt)
  {
    match GetTokenFromRequest(req, RefreshCookie)
    case Failure(e) => Failure(e)
    case Success(token) =>
      match VerifyTokenAndSession(db, now, token, KindMember(RefreshTokenMember))
      case Failure(e) => Failure(e)
      case Success(_) => Success(true)
  }

  /**
    No claim set matches an enumeration member, and the members' values are not
    the kinds issuance writes either: comparing `.value` would not help.
   */
  lemma MemberNeverMatches(kind: Option<string>, m: TokenTypeMember)
    ensures !KindMatches(kind, KindMember(m))
    ensures MemberValue(m) != AccessKind && MemberValue(m) != RefreshKind
  {
    assert |MemberValue(m)| > |RefreshKind|;
  }

  /** Even the token a login just issued is refused by every dependency. */
  lemma FreshLoginRefused(db: Db, cfg: Config, now: int, telegramId: int, req: Request, freshId: string)
    requires Login(db, cfg, now, telegramId, req, freshId).result.Success?
    requires cfg.accessExpireMinutes >= 0
    ensures
      var o := Login(db, cfg, now, telegramId, req, freshId);
      var client := CookieClient(o.result.value, req.userAgent);
      && GetCurrentUser(o.db, now, client) == Failure(NoJwt)
      && CheckAccessToken(o.db, now, client) == Failure(NoJwt)
  {
    var o := Login(db, cfg, now, telegramId, req, freshId);
    CookieClientFindsTokens(o.result.value, req.userAgent);
  }

  /** The current user with the access kind `"access"` and the repaired lookup and decode branch. */
  function GetCurrentUserFixed(db: Db, now: int, req: Request): (r: Result<Users.User, AuthError>)
    ensures GetTokenFromRequestFixed(req, AccessCookie).Failure? ==> r == Failure(TokenNoFound)
    ensures r.Success? ==>
      var token := GetTokenFromRequestFixed(req, AccessCookie).value;
      && token.Signed? && token.claims.kind == Some(AccessKind) && !ExpiryFails(token.claims, now)
      && r.value in db.users && Truthy(token.claims.sid)
      && Truthy(token.claims.sub) && ParseInt(token.claims.sub.value) == Some(r.value.telegramId)
      && SessionBinds(db.sessions, token.claims.sid.value, r.value)
    ensures
      (GetTokenFromRequestFixed(req, AccessCookie).Success?
       && Decode(GetTokenFromRequestFixed(req, AccessCookie).value, now).Malformed?) ==> r == Failure(NoJwt)
  {
    match GetTokenFromRequestFixed(req, AccessCookie)
    case Failure(e) => Failure(e)
    case Success(token) => VerifyTokenAndSessionFixed(db, now, token, KindText(AccessKind))
  }

  /** The repaired access check. */
  function CheckAccessTokenFixed(db: Db, now: int, req: Request): (r: Result<bool, AuthError>)
    ensures r.Success? ==> r.value && GetCurrentUserFixed(db, now, req).Success?
    ensures GetCurrentUserFixed(db, now, req).Success? ==> r == Success(true)
  {
    match GetCurrentUserFixed(db, now, req)
    case Failure(e) => Failure(e)
    case Success(_) => Success(true)
  }

  /** The repaired refresh check: the refresh token, verified for kind `"refresh"`. */
  function CheckRefreshTokenFixed(db: Db, now: int, req: Request): (r: Result<bool, AuthError>)
    ensures GetTokenFromRequestFixed(req, RefreshCookie).Failure? ==> r == Failure(TokenNoFound)
    ensures r.Success? ==>
      var token := GetTokenFromRequestFixed(req, RefreshCookie).value;
      token.Signed? && token.claims.kind == Some(RefreshKind) && !ExpiryFails(token.claims, now)
    ensures r.Success? ==> r.value
    ensures r == Success(true) <==>
      && GetTokenFromRequestFixed(req, RefreshCookie).Success?
      && VerifyTokenAndSessionFixed(db, now, GetTokenFromRequestFixed(req, RefreshCookie).value, KindText(RefreshKind)).Success?
  {
    match GetTokenFromRequestFixed(req, RefreshCookie)
    case Failure(e) => Failure(e)
    case Success(token) =>
      match VerifyTokenAndSessionFixed(db, now, token, KindText(RefreshKind))
      case Failure(e) => Failure(e)
      case Success(_) => Success(true)
  }

  /**
    With the repaired dependency, a client that logged in is recognised as the
    user it logged in as, whether it keeps cookies or echoes the token headers,
    until the access token expires.
   */
  lemma FreshLoginAcceptedFixed(db: Db, cfg: Config, now: int, later: int, user: Users.User, req: Request, freshId: string)
    requires Consistent(db) && user in db.users
    requires NamedSessions(db.sessions) && |freshId| > 0
    requires Login(db, cfg, now, user.telegramId, req, freshId).result.Success?
    requires later <= now + AccessLifetime(cfg) && 0 < now + AccessLifetime(cfg)
    ensures
      var o := Login(db, cfg, now, user.telegramId, req, freshId);
      && GetCurrentUserFixed(o.db, later, CookieClient(o.result.value, req.userAgent)) == Success(user)
      && GetCurrentUserFixed(o.db, later, HeaderClient(o.result.value, req.userAgent)) == Success(user)
  {
    Users.FindByTelegramIdExact(db.users, user);
    var o := Login(db, cfg, now, user.telegramId, req, freshId);
    IssuedAccessTokenVerifies(db, cfg, now, later, user, req, freshId);
    CookieClientFindsTokens(o.result.value, req.userAgent);
    HeaderClientFoundFixed(o.result.value, req.userAgent);
  }
}

=== FILE: dao.dfy ===
/**
  The generic data-access object every table of the application goes through.
  A table is the sequence of its rows; a row maps column names to values. Filters
  and value sets are what `model_dump(exclude_unset=True)` produces from a
  schema object: the fields the caller set, in declaration order, each once.
 */
module Dao {
  import opened Wrappers

  datatype Value = IntV(i: int) | StrV(s: string) | BoolV(b: bool) | NullV

  type Row = map<string, Value>

  type Table = seq<Row>

  /** An ordered dictionary of column assignments. */
  type Fields = seq<(string, Value)>

  datatype DaoError =
    | ModelMissing          // ValueError from the constructor
    | MultipleResultsFound  // raised by `scalar_one_or_none` when several rows match
    | EmptyDeleteFilter     // ValueError from `delete` without a filter
    | DuplicatePrimaryKey   // integrity error raised by the database when a row is added
    | RowlessResult         // `scalar_one_or_none` on the result of a statement that returns no rows

  /** A DAO bound to the mapped class it queries. */
  datatype Dao = Dao(model: string)

  /** Python dictionaries never hold a key twice. */
  predicate IsDict(f: Fields) {
    forall i, j :: 0 <= i < j < |f| ==> f[i].0 != f[j].0
  }

  predicate HasColumn(f: Fields, c: string) {
    exists i :: 0 <= i < |f| && f[i].0 == c
  }

  /** The constructor refuses a subclass that did not set `model`. */
  function NewDao(model: Option<string>): (r: Result<Dao, DaoError>)
    ensures r.Failure? <==> model.None?
    ensures r.Failure? ==> r.error == ModelMissing
    ensures r.Success? ==> r.value.model == model.value
  {
    match model
    case None => Failure(ModelMissing)
    case Some(m) => Success(Dao(m))
  }

  /** `filter_by(**filters)`: the conjunction of one equality per set field. */
  predicate Matches(row: Row, f: Fields) {
    forall i :: 0 <= i < |f| ==> f[i].0 in row && row[f[i].0] == f[i].1
  }

  /** The rows a filtered SELECT returns, in table order. */
  function Select(t: Table, f: Fields): (rows: Table)
    ensures |rows| <= |t|
    ensures forall r :: r in rows <==> r in t && Matches(r, f)
  {
    if |t| == 0 then []
    else if Matches(t[0], f) then [t[0]] + Select(t[1..], f)
    else Select(t[1..], f)
  }

  /** The rows a filtered DELETE leaves behind, in table order. */
  function Reject(t: Table, f: Fields): (rows: Table)
    ensures |rows| <= |t|
    ensures forall r :: r in rows <==> r in t && !Matches(r, f)
  {
    if |t| == 0 then []
    else if Matches(t[0], f) then Reject(t[1..], f)
    else [t[0]] + Reject(t[1..], f)
  }

  /** `find_one_or_none`: no match gives none, one match gives it, more is an error. */
  function FindOneOrNone(t: Table, f: Fields): (r: Result<Option<Row>, DaoError>)
    ensures r == Success(None) <==> forall row :: row in t ==> !Matches(row, f)
    ensures r.Success? && r.value.Some? ==> Select(t, f) == [r.value.value]
    ensures r.Failure? <==> |Select(t, f)| > 1
    ensures r.Failure? ==> r.error == MultipleResultsFound
  {
    var rows := Select(t, f);
    if |rows| == 0 then Success(None)
    else if |rows| == 1 then
      assert rows[0] in rows;
      Success(Some(rows[0]))
    else
      assert rows[0] in rows;
      Failure(MultipleResultsFound)
  }

  /** `find_one_or_none_by_id`: the lookup filtered on the `id` column alone. */
  function FindOneOrNoneById(t: Table, id: Value): (r: Result<Option<Row>, DaoError>)
    ensures r == Success(None) <==> forall row :: row in t ==> !("id" in row && row["id"] == id)
    ensures r.Success? && r.value.Some? ==> "id" in r.value.value && r.value.value["id"] == id
    ensures r.Success? && r.value.Some? ==> r.value.value in t
    ensures r.Success? && r.value.Some? ==> Select(t, [("id", id)]) == [r.value.value]
    ensures r.Failure? <==> |Select(t, [("id", id)])| > 1
    ensures r.Failure? ==> r.error == MultipleResultsFound
  {
    var r := FindOneOrNone(t, [("id", id)]);
    assert forall row :: Matches(row, [("id", id)]) <==> "id" in row && row["id"] == id by {
      forall row ensures Matches(row, [("id", id)]) <==> "id" in row && row["id"] == id {
        assert [("id", id)][0] == ("id", id);
      }
    }
    if r.Success? && r.value.Some? then
      assert r.value.value in Select(t, [("id", id)]);
      r
    else r
  }

  /** `find_all`: the rows matching the filter, or every row when none is given. */
  function FindAll(t: Table, f: Option<Fields>): (rows: Table)
    ensures f.None? ==> rows == t
    ensures forall r :: r in rows <==> r in t && (f.None? || Matches(r, f.value))
  {
    match f
    case None => t
    case Some(g) => Select(t, g)
  }

  /** The SET part of an UPDATE applied to one row, assignments in dictionary order. */
  function ApplyFields(row: Row, values: Fields): (r: Row)
    ensures forall c :: c in row && !HasColumn(values, c) ==> c in r && r[c] == row[c]
    ensures forall c :: c in r <==> c in row || HasColumn(values, c)
    decreases |values|
  {
    if |values| == 0 then row
    else
      var r := ApplyFields(row[values[0].0 := values[0].1], values[1..]);
      assert forall c :: HasColumn(values[1..], c) ==> HasColumn(values, c) by {
        forall c | HasColumn(values[1..], c) ensures HasColumn(values, c) {
          var i :| 0 <= i < |values[1..]| && values[1..][i].0 == c;
          assert values[i + 1].0 == c;
        }
      }
      assert forall c :: HasColumn(values, c) && c != values[0].0 ==> HasColumn(values[1..], c) by {
        forall c | HasColumn(values, c) && c != values[0].0 ensures HasColumn(values[1..], c) {
          var i :| 0 <= i < |values| && values[i].0 == c;
          assert i > 0 && values[1..][i - 1].0 == c;
        }
      }
      r
  }

  /** Each assigned column of an UPDATE ends up holding the assigned value. */
  lemma {:induction false} ApplyFieldsAssigns(row: Row, values: Fields)
    requires IsDict(values)
    ensures forall i :: 0 <= i < |values| ==> values[i].0 in ApplyFields(row, values)
    ensures forall i :: 0 <= i < |values| ==> ApplyFields(row, values)[values[i].0] == values[i].1
    decreases |values|
  {
    if |values| > 0 {
      var row' := row[values[0].0 := values[0].1];
      var tail := values[1..];
      ApplyFieldsAssigns(row', tail);
      forall j | 0 <= j < |tail|
        ensures tail[j].0 != values[0].0
      {
        assert tail[j] == values[j + 1];
      }
      assert !HasColumn(tail, values[0].0);
      forall i | 0 <= i < |values|
        ensures values[i].0 in ApplyFields(row, values)
        ensures ApplyFields(row, values)[values[i].0] == values[i].1
      {
        if i > 0 {
          assert tail[i - 1] == values[i];
        }
      }
    }
  }

  datatype UpdateResult = UpdateResult(table: Table, rowCount: nat)

  /**
    `update`: every row matching all filter equalities receives the assignments;
    every other row is left as it was. `rowCount` is the number of rows matched.
   */
  function Update(t: Table, f: Fields, values: Fields): (u: UpdateResult)
    ensures |u.table| == |t|
    ensures u.rowCount == |Select(t, f)|
    ensures forall i :: 0 <= i < |t| && !Matches(t[i], f) ==> u.table[i] == t[i]
    ensures forall i :: 0 <= i < |t| && Matches(t[i], f) ==> u.table[i] == ApplyFields(t[i], values)
  {
    if |t| == 0 then UpdateResult([], 0)
    else
      var rest := Update(t[1..], f, values);
      var head := if Matches(t[0], f) then ApplyFields(t[0], values) else t[0];
      var u := UpdateResult([head] + rest.table, if Matches(t[0], f) then rest.rowCount + 1 else rest.rowCount);
      assert forall i :: 0 < i < |t| ==> u.table[i] == rest.table[i - 1] && t[i] == t[1..][i - 1];
      u
  }

  /**
    What the result of an UPDATE statement offers to `scalar_one_or_none`: no rows
    at all, as without a RETURNING clause, or the updated rows.
   */
  datatype UpdateReturns = NoRows | UpdatedRows

  /**
    `update` as written, with the read of one row from the statement's result
    that follows the statement. The read raises when the result carries no rows,
    and when it carries more than one. The error is re-raised, so the statement's
    effect is lost; otherwise the call returns with the statement's effect.
   */
  function UpdateRead(t: Table, f: Fields, values: Fields, shape: UpdateReturns): (r: Result<UpdateResult, DaoError>)
    ensures r.Failure? <==> shape == NoRows || |Select(t, f)| > 1
    ensures r.Failure? && shape == NoRows ==> r.error == RowlessResult
    ensures r.Failure? && shape == UpdatedRows ==> r.error == MultipleResultsFound
    ensures r.Success? ==> r.value.table == Update(t, f, values).table && r.value.rowCount <= 1
  {
    var u := Update(t, f, values);
    if shape == NoRows then Failure(RowlessResult)
    else if u.rowCount > 1 then Failure(MultipleResultsFound)
    else Success(u)
  }

  datatype DeleteResult = DeleteResult(table: Table, rowCount: nat)

  /** `delete`: refused without a filter, otherwise removes exactly the matching rows. */
  function Delete(t: Table, f: Fields): (r: Result<DeleteResult, DaoError>)
    ensures r.Failure? <==> |f| == 0
    ensures r.Failure? ==> r.error == EmptyDeleteFilter
    ensures r.Success? ==> forall row :: row in r.value.table <==> row in t && !Matches(row, f)
    ensures r.Success? ==> r.value.rowCount == |Select(t, f)|
  {
    if |f| == 0 then Failure(EmptyDeleteFilter)
    else Success(DeleteResult(Reject(t, f), |Select(t, f)|))
  }

  /** A row whose `id` column holds a non-null value. */
  predicate HasId(row: Row) {
    "id" in row && row["id"] != NullV
  }

  /** `count`: `COUNT(id)` over the filtered rows, which skips null identifiers. */
  function Count(t: Table, f: Option<Fields>): (n: nat)
    ensures n <= |t|
  {
    if |t| == 0 then 0
    else (if (f.None? || Matches(t[0], f.value)) && HasId(t[0]) then 1 else 0) + Count(t[1..], f)
  }

  /** In a table whose rows all carry an identifier, `count` is the size of `find_all`. */
  lemma {:induction false} CountMatchesFindAll(t: Table, f: Option<Fields>)
    requires forall row :: row in t ==> HasId(row)
    ensures Count(t, f) == |FindAll(t, f)|
  {
    if |t| > 0 {
      assert t[0] in t;
      assert forall row :: row in t[1..] ==> row in t;
      CountMatchesFindAll(t[1..], f);
    }
  }

  /** The rows a delete removes and the rows it keeps together make up the table. */
  lemma {:induction false} DeletePartitions(t: Table, f: Fields)
    ensures multiset(Select(t, f)) + multiset(Reject(t, f)) == multiset(t)
  {
    if |t| > 0 {
      DeletePartitions(t[1..], f);
      assert t == [t[0]] + t[1..];
    }
  }

  /** An empty filter matches every row. */
  lemma {:induction false} EmptyFilterSelectsAll(t: Table)
    ensures Select(t, []) == t
  {
    if |t| > 0 {
      EmptyFilterSelectsAll(t[1..]);
    }
  }
}

=== FILE: lifecycle.dfy ===
/**
  Sequences of the state-changing routes — login, refresh, logout — and what
  holds across them: the session table only grows and only revokes, the
  database constraints survive, and, with the repaired refresh flow, a user has
  at most one active session per user agent, so login never meets two.
 */
module Lifecycle {
  import opened Wrappers
  import opened Text
  import opened Tokens
  import opened Web
  import Users
  import opened Sessions
  import opened Store
  import opened Security
  import opened AuthService

  datatype Op =
    | LoginOp(telegramId: int, req: Request, freshId: string)
    | RefreshOp(req: Request, freshId: string)
    | LogoutOp(token: Token)

  /** A route call at time `now`. */
  datatype Event = Event(now: int, op: Op)

  /** Which refresh flow the refresh route runs. */
  datatype Wiring = AsWritten | Repaired

  function Refresh(w: Wiring, db: Db, cfg: Config, now: int, req: Request, freshId: string): Outcome<Issued> {
    match w
    case AsWritten => RefreshTokens(db, cfg, now, req, freshId)
    case Repaired => RefreshTokensFixed(db, cfg, now, req, freshId)
  }

  function Step(w: Wiring, cfg: Config, db: Db, e: Event): Db {
    match e.op
    case LoginOp(telegramId, req, freshId) => Login(db, cfg, e.now, telegramId, req, freshId).db
    case RefreshOp(req, freshId) => Refresh(w, db, cfg, e.now, req, freshId).db
    case LogoutOp(token) => Logout(db, e.now, token).db
  }

  function Run(w: Wiring, cfg: Config, db: Db, events: seq<Event>): Db
    decreases |events|
  {
    if |events| == 0 then db else Run(w, cfg, Step(w, cfg, db, events[0]), events[1..])
  }

  /** `b` keeps every row of `a`, each unchanged or revoked, and may append rows; users are untouched. */
  predicate Evolves(a: Db, b: Db) {
    && b.users == a.users
    && |a.sessions| <= |b.sessions|
    && forall k :: 0 <= k < |a.sessions| ==>
         b.sessions[k] == a.sessions[k] || b.sessions[k] == Deactivated(a.sessions[k])
  }

  /** A rotation revokes in place and appends one row. */
  lemma RotatedEvolves(before: Db, after: Db, cfg: Config, now: int, s: Session, userAgent: string, freshId: string)
    requires RotatedFrom(before, after, cfg, now, s, userAgent, freshId)
    ensures Evolves(before, after)
    ensures |after.sessions| == |before.sessions| + 1
  {
    DeactivateOnlyTarget(before.sessions, s.id);
  }

  /** Every route call evolves the state. */
  lemma StepEvolves(w: Wiring, cfg: Config, db: Db, e: Event)
    ensures Evolves(db, Step(w, cfg, db, e))
  {
    match e.op
    case LoginOp(telegramId, req, freshId) =>
    case RefreshOp(req, freshId) =>
      var o := Refresh(w, db, cfg, e.now, req, freshId);
      if o.result.Success? {
        var c := Cookie(req, RefreshCookie).value.claims;
        var s := SessionNamed(db.sessions, c.sid.value).value;
        var ua := if w == AsWritten then req.userAgent else s.userAgent;
        RotatedEvolves(db, o.db, cfg, e.now, s, ua, freshId);
      }
    case LogoutOp(token) =>
  }

  lemma EvolvesTransitive(a: Db, b: Db, c: Db)
    requires Evolves(a, b) && Evolves(b, c)
    ensures Evolves(a, c)
  {
    forall k | 0 <= k < |a.sessions|
      ensures c.sessions[k] == a.sessions[k] || c.sessions[k] == Deactivated(a.sessions[k])
    {
      assert b.sessions[k] == a.sessions[k] || b.sessions[k] == Deactivated(a.sessions[k]);
    }
  }

  /** Any sequence of route calls evolves the state. */
  lemma {:induction false} RunEvolves(w: Wiring, cfg: Config, db: Db, events: seq<Event>)
    ensures Evolves(db, Run(w, cfg, db, events))
    decreases |events|
  {
    if |events| > 0 {
      var next := Step(w, cfg, db, events[0]);
      StepEvolves(w, cfg, db, events[0]);
      RunEvolves(w, cfg, next, events[1..]);
      EvolvesTransitive(db, next, Run(w, cfg, next, events[1..]));
    }
  }

  /** A revoked session keeps its id and is never active again, whatever follows. */
  lemma RevokedStaysRevoked(w: Wiring, cfg: Config, db: Db, events: seq<Event>, k: int)
    requires 0 <= k < |db.sessions| && !db.sessions[k].isActive
    ensures k < |Run(w, cfg, db, events).sessions|
    ensures Run(w, cfg, db, events).sessions[k] == db.sessions[k]
  {
    RunEvolves(w, cfg, db, events);
  }

  /** Rows that keep their ids and owners, only losing `is_active`, keep the constraints. */
  lemma RevocationKeepsConsistent(a: Db, b: Db)
    requires Consistent(a)
    requires b.users == a.users && |b.sessions| == |a.sessions|
    requires forall k :: 0 <= k < |a.sessions| ==>
      b.sessions[k] == a.sessions[k] || b.sessions[k] == Deactivated(a.sessions[k])
    ensures Consistent(b)
  {
    assert forall k :: 0 <= k < |a.sessions| ==>
      b.sessions[k].id == a.sessions[k].id && b.sessions[k].userId == a.sessions[k].userId;
  }

  /** A rotation keeps the constraints: the successor's key is unused and its owner exists. */
  lemma RotatedKeepsConsistent(before: Db, after: Db, cfg: Config, now: int, s: Session, userAgent: string, freshId: string)
    requires Consistent(before)
    requires RotatedFrom(before, after, cfg, now, s, userAgent, freshId)
    ensures Consistent(after)
  {
    var d := Deactivate(before.sessions, ActiveById(s.id));
    DeactivateOnlyTarget(before.sessions, s.id);
    RevocationKeepsConsistent(before, before.(sessions := d));
    AddKeepsUniqueIds(d, CreateSession(cfg, freshId, userAgent, s.userId, now));
  }

  /** Every route call keeps the database constraints. */
  lemma StepKeepsConsistent(w: Wiring, cfg: Config, db: Db, e: Event)
    requires Consistent(db)
    ensures Consistent(Step(w, cfg, db, e))
  {
    match e.op
    case LoginOp(telegramId, req, freshId) =>
      var u := Users.FindByTelegramId(db.users, telegramId);
      if u.Some? {
        IssueKeepsConsistent(db, cfg, e.now, u.value, req, freshId);
      }
    case RefreshOp(req, freshId) =>
      var o := Refresh(w, db, cfg, e.now, req, freshId);
      if o.result.Success? {
        var c := Cookie(req, RefreshCookie).value.claims;
        var s := SessionNamed(db.sessions, c.sid.value).value;
        var ua := if w == AsWritten then req.userAgent else s.userAgent;
        RotatedKeepsConsistent(db, o.db, cfg, e.now, s, ua, freshId);
      }
    case LogoutOp(token) =>
      RevocationKeepsConsistent(db, Logout(db, e.now, token).db);
  }

  /** Any sequence of route calls keeps the database constraints. */
  lemma {:induction false} RunKeepsConsistent(w: Wiring, cfg: Config, db: Db, events: seq<Event>)
    requires Consistent(db)
    ensures Consistent(Run(w, cfg, db, events))
    decreases |events|
  {
    if |events| > 0 {
      StepKeepsConsistent(w, cfg, db, events[0]);
      RunKeepsConsistent(w, cfg, Step(w, cfg, db, events[0]), events[1..]);
    }
  }

  /** Revocation never creates a second active session for a user and user agent. */
  lemma RevocationKeepsUniqueActive(a: SessionTable, b: SessionTable)
    requires UniqueActive(a) && |b| == |a|
    requires forall k :: 0 <= k < |a| ==> b[k] == a[k] || b[k] == Deactivated(a[k])
    ensures UniqueActive(b)
  {
  }

  /** A rotation whose successor inherits the revoked session's user agent keeps at most one active session per user agent. */
  lemma RotatedKeepsUniqueActive(before: Db, after: Db, cfg: Config, now: int, s: Session, freshId: string)
    requires UniqueActive(before.sessions)
    requires RotatedFrom(before, after, cfg, now, s, s.userAgent, freshId)
    ensures UniqueActive(after.sessions)
  {
    var t := before.sessions;
    var d := Deactivate(t, ActiveById(s.id));
    DeactivateOnlyTarget(t, s.id);
    RevocationKeepsUniqueActive(t, d);
    var n := CreateSession(cfg, freshId, s.userAgent, s.userId, now);
    var j :| 0 <= j < |t| && t[j] == s;
    var u := after.sessions;
    forall i | 0 <= i < |d| && u[i].isActive
      ensures u[i].userId != n.userId || u[i].userAgent != n.userAgent
    {
      assert u[i] == d[i] && d[i] == t[i] && t[i].id != s.id;
      assert i != j;
    }
  }

  /** Every route call under the repaired wiring keeps at most one active session per user and user agent. */
  lemma StepRepairedKeepsUniqueActive(cfg: Config, db: Db, e: Event)
    requires UniqueActive(db.sessions)
    ensures UniqueActive(Step(Repaired, cfg, db, e).sessions)
  {
    match e.op
    case LoginOp(telegramId, req, freshId) =>
      var u := Users.FindByTelegramId(db.users, telegramId);
      if u.Some? {
        IssuePreservesUniqueActive(db, cfg, e.now, u.value, req, freshId);
      }
    case RefreshOp(req, freshId) =>
      var o := RefreshTokensFixed(db, cfg, e.now, req, freshId);
      if o.result.Success? {
        var c := Cookie(req, RefreshCookie).value.claims;
        var s := SessionNamed(db.sessions, c.sid.value).value;
        RotatedKeepsUniqueActive(db, o.db, cfg, e.now, s, freshId);
      }
    case LogoutOp(token) =>
      RevocationKeepsUniqueActive(db.sessions, Logout(db, e.now, token).db.sessions);
  }

  lemma {:induction false} RunRepairedKeepsUniqueActive(cfg: Config, db: Db, events: seq<Event>)
    requires UniqueActive(db.sessions)
    ensures UniqueActive(Run(Repaired, cfg, db, events).sessions)
    decreases |events|
  {
    if |events| > 0 {
      StepRepairedKeepsUniqueActive(cfg, db, events[0]);
      RunRepairedKeepsUniqueActive(cfg, Step(Repaired, cfg, db, events[0]), events[1..]);
    }
  }

  /** Under the repaired wiring, a login after any history never meets two active sessions. */
  lemma RepairedLoginNeverMeetsTwo(cfg: Config, db: Db, events: seq<Event>, now: int, telegramId: int, req: Request, freshId: string)
    requires UniqueActive(db.sessions)
    ensures Login(Run(Repaired, cfg, db, events), cfg, now, telegramId, req, freshId).result != Failure(Crash(MultipleRows))
  {
    var after := Run(Repaired, cfg, db, events);
    RunRepairedKeepsUniqueActive(cfg, db, events);
    var u := Users.FindByTelegramId(after.users, telegramId);
    if u.Some? {
      UniqueActiveLookup(after.sessions, u.value.id, req.userAgent);
    }
  }

  /** Two distinct members make a sequence at least two long. */
  lemma TwoMembers<T>(s: seq<T>, a: T, b: T)
    requires a in s && b in s && a != b
    ensures |s| > 1
  {
  }

  /** A valid refresh token for a live session rotates it as written, under the caller's user agent. */
  lemma RefreshRotatesLiveSession(db: Db, cfg: Config, now: int, k: int, owner: Users.User, req: Request, freshId: string)
    requires UniqueIds(db.sessions) && 0 <= k < |db.sessions|
    requires db.sessions[k].isActive && db.sessions[k].expiresAt >= now && |db.sessions[k].id| > 0
    requires Users.FindById(db.users, db.sessions[k].userId) == Some(owner)
    requires RefreshLifetime(cfg) >= 0 && !IdTaken(db.sessions, freshId)
    requires Cookie(req, RefreshCookie) == Some(Mint(cfg, now, IntToString(owner.telegramId), db.sessions[k].id).refreshToken)
    ensures RefreshTokens(db, cfg, now, req, freshId).result.Success?
    ensures RefreshTokens(db, cfg, now, req, freshId).db.sessions
      == Deactivate(db.sessions, ActiveById(db.sessions[k].id))
         + [CreateSession(cfg, freshId, req.userAgent, db.sessions[k].userId, now)]
  {
    var t := db.sessions;
    FindByIdLocates(t, k);
    ParseIntRoundTrip(owner.telegramId);
    var d := Deactivate(t, ActiveById(t[k].id));
    assert !IdTaken(d, freshId) by {
      forall i | 0 <= i < |d| ensures d[i].id != freshId {
        assert d[i].id == t[i].id;
      }
    }
  }

  /**
    As written, a rotation records the caller's current user agent. A user with
    an active session on agent `ua` who refreshes another session from `ua` ends
    with two active sessions there, and the next login from `ua` fails with a
    server error.
   */
  lemma AgentSwitchBreaksLogin(db: Db, cfg: Config, now: int, k: int, j: int, owner: Users.User, req: Request,
                               freshId: string, loginReq: Request, loginId: string)
    requires Consistent(db) && 0 <= k < |db.sessions| && 0 <= j < |db.sessions| && j != k
    requires db.sessions[k].isActive && db.sessions[k].expiresAt >= now && |db.sessions[k].id| > 0
    requires Users.FindById(db.users, db.sessions[k].userId) == Some(owner)
    requires db.sessions[j].isActive && db.sessions[j].userId == owner.id && db.sessions[j].userAgent == req.userAgent
    requires RefreshLifetime(cfg) >= 0 && !IdTaken(db.sessions, freshId)
    requires Cookie(req, RefreshCookie) == Some(Mint(cfg, now, IntToString(owner.telegramId), db.sessions[k].id).refreshToken)
    requires loginReq.userAgent == req.userAgent
    ensures RefreshTokens(db, cfg, now, req, freshId).result.Success?
    ensures !UniqueActive(RefreshTokens(db, cfg, now, req, freshId).db.sessions)
    ensures Login(RefreshTokens(db, cfg, now, req, freshId).db, cfg, now, owner.telegramId, loginReq, loginId).result
      == Failure(Crash(MultipleRows))
  {
    var t := db.sessions;
    RefreshRotatesLiveSession(db, cfg, now, k, owner, req, freshId);
    var o := RefreshTokens(db, cfg, now, req, freshId);
    DeactivateOnlyTarget(t, t[k].id);
    var n := o.db.sessions[|t|];
    assert o.db.sessions[j] == t[j];
    assert t[j].id != n.id;
    var active := ActiveSessions(o.db.sessions, owner.id, req.userAgent);
    assert t[j] in active && n in active;
    TwoMembers(active, t[j], n);
    Users.FindByIdExact(db.users, owner);
    Users.FindByTelegramIdExact(db.users, owner);
  }

  /**
    After a logout with a token naming session `sid`, no token bound to `sid`
    passes verification any more.
   */
  lemma LogoutEndsSession(db: Db, now: int, token: Token, later: int, other: Token, expected: ExpectedKind)
    requires UniqueIds(db.sessions)
    requires Decode(token, now).Decoded? && Decode(token, now).claims.sid.Some?
    requires other.Signed? && other.claims.sid == Decode(token, now).claims.sid
    ensures VerifyTokenAndSessionFixed(Logout(db, now, token).db, later, other, expected).Failure?
  {
    var sid := Decode(token, now).claims.sid.value;
    var after := Logout(db, now, token).db;
    FindByIdNeverMultiple(db.sessions, sid);
    forall u: Users.User ensures !SessionBinds(after.sessions, sid, u) {
      forall k | 0 <= k < |after.sessions| && after.sessions[k].id == sid
        ensures !after.sessions[k].isActive
      {
        assert after.sessions[k] == Deactivate(db.sessions, ActiveById(sid))[k];
      }
    }
  }
}

=== FILE: security.dfy ===
/**
  Token issuance at login: reuse the caller's active session for the same user
  agent, or open a new one, and hand out an access and a refresh token bound to it.
 */
module Security {
  import opened Wrappers
  import opened Text
  import opened Tokens
  import opened Web
  import Users
  import opened Sessions
  import opened Store

  /** `create_session`: the row a login or a rotation inserts. */
  function CreateSession(cfg: Config, sid: string, userAgent: string, userId: int, now: int): (s: Session)
    ensures s.id == sid && s.userId == userId && s.userAgent == userAgent
    ensures s.isActive
    ensures s.createdAt == now && s.expiresAt == now + cfg.refreshExpireDays * SecondsPerDay
  {
    Session(sid, userId, userAgent, now, now + RefreshLifetime(cfg), true)
  }

  /** The token pair bound to one session; `subject` is the text put in `sub`. */
  function Mint(cfg: Config, now: int, subject: string, sid: string): (i: Issued)
    ensures i.sessionId == sid
    ensures i.accessToken == Signed(Payload(subject, sid, AccessLifetime(cfg), AccessKind, now))
    ensures i.refreshToken == Signed(Payload(subject, sid, RefreshLifetime(cfg), RefreshKind, now))
  {
    Issued(CreateAccessToken(cfg, subject, sid, now), CreateRefreshToken(cfg, subject, sid, now), sid)
  }

  /** The active sessions of one user on one user agent. */
  function ActiveSessions(t: SessionTable, userId: int, userAgent: string): SessionTable {
    SelectSessions(t, ActiveFor(userId, userAgent))
  }

  /**
    `issue_tokens`: reuse the one active session of the user on this user agent,
    or open a new one under `freshId` (the generated UUID) when there is none.
   */
  function IssueTokens(db: Db, cfg: Config, now: int, user: Users.User, req: Request, freshId: string): (o: Outcome<Issued>)
    ensures o.result.Failure? ==> o.db == db
    ensures
      var active := ActiveSessions(db.sessions, user.id, req.userAgent);
      && (|active| > 1 <==> o.result == Failure(Crash(MultipleRows)))
      && (|active| == 1 ==>
            o.db == db && o.result.Success? && o.result.value.sessionId == active[0].id)
      && (|active| == 0 && !IdTaken(db.sessions, freshId) ==>
            && o.db == db.(sessions := db.sessions + [CreateSession(cfg, freshId, req.userAgent, user.id, now)])
            && o.result.Success? && o.result.value.sessionId == freshId)
      && (|active| == 0 && IdTaken(db.sessions, freshId) ==>
            o.result == Failure(Crash(DuplicateSessionId)))
    ensures o.result.Success? ==> o.result.value == Mint(cfg, now, IntToString(user.telegramId), o.result.value.sessionId)
  {
    match FindSession(db.sessions, ActiveFor(user.id, req.userAgent))
    case Failure(_) => Fail(db, Crash(MultipleRows))
    case Success(Some(existing)) =>
      Outcome(db, Success(Mint(cfg, now, IntToString(user.telegramId), existing.id)))
    case Success(None) =>
      match AddSession(db.sessions, CreateSession(cfg, freshId, req.userAgent, user.id, now))
      case Failure(_) => Fail(db, Crash(DuplicateSessionId))
      case Success(t) => Outcome(db.(sessions := t), Success(Mint(cfg, now, IntToString(user.telegramId), freshId)))
  }

  /** The login route: look the caller up by Telegram identity, then issue. */
  function Login(db: Db, cfg: Config, now: int, telegramId: int, req: Request, freshId: string): (o: Outcome<Issued>)
    ensures o.result.Failure? ==> o.db == db
    ensures o.result == Failure(UserNotFound) <==> forall u :: u in db.users ==> u.telegramId != telegramId
    ensures o.result.Success? ==>
      && o.result.value.accessToken.Signed? && o.result.value.refreshToken.Signed?
      && o.result.value.accessToken.claims.sub == Some(IntToString(telegramId))
      && o.result.value.refreshToken.claims.sub == Some(IntToString(telegramId))
      && o.result.value.accessToken.claims.sid == Some(o.result.value.sessionId)
      && o.result.value.refreshToken.claims.sid == Some(o.result.value.sessionId)
  {
    match Users.FindByTelegramId(db.users, telegramId)
    case None => Fail(db, UserNotFound)
    case Some(user) => IssueTokens(db, cfg, now, user, req, freshId)
  }

  /** Appending a row extends a selection by that row exactly when it matches. */
  lemma {:induction false} SelectAppend(t: SessionTable, s: Session, f: SessionFilter)
    ensures SelectSessions(t + [s], f) == SelectSessions(t, f) + (if SessionMatches(s, f) then [s] else [])
  {
    if |t| == 0 {
      assert t + [s] == [s];
      assert [s][1..] == [];
    } else {
      assert (t + [s])[1..] == t[1..] + [s];
      assert (t + [s])[0] == t[0];
      SelectAppend(t[1..], s, f);
    }
  }

  /** After a successful issuance the user has exactly one active session on that user agent: the issued one. */
  lemma IssuedSessionIsTheActiveOne(db: Db, cfg: Config, now: int, user: Users.User, req: Request, freshId: string)
    requires IssueTokens(db, cfg, now, user, req, freshId).result.Success?
    ensures
      var o := IssueTokens(db, cfg, now, user, req, freshId);
      |ActiveSessions(o.db.sessions, user.id, req.userAgent)| == 1
      && ActiveSessions(o.db.sessions, user.id, req.userAgent)[0].id == o.result.value.sessionId
  {
    var active := ActiveSessions(db.sessions, user.id, req.userAgent);
    if |active| == 0 {
      SelectAppend(db.sessions, CreateSession(cfg, freshId, req.userAgent, user.id, now), ActiveFor(user.id, req.userAgent));
    }
  }

  /**
    Issuing twice for the same user and user agent, with nothing in between,
    yields the same session id and leaves the state the first issuance produced.
   */
  lemma IssueTwiceSameSession(db: Db, cfg: Config, now1: int, now2: int, user: Users.User, req1: Request, req2: Request, fresh1: string, fresh2: string)
    requires req1.userAgent == req2.userAgent
    requires IssueTokens(db, cfg, now1, user, req1, fresh1).result.Success?
    ensures
      var first := IssueTokens(db, cfg, now1, user, req1, fresh1);
      var second := IssueTokens(first.db, cfg, now2, user, req2, fresh2);
      && second.result.Success?
      && second.result.value.sessionId == first.result.value.sessionId
      && second.db == first.db
  {
    IssuedSessionIsTheActiveOne(db, cfg, now1, user, req1, fresh1);
  }

  /** At most one active session per user and user agent: what the reuse lookup needs to succeed. */
  predicate UniqueActive(t: SessionTable) {
    forall i, j :: 0 <= i < j < |t| && t[i].isActive && t[j].isActive ==>
      t[i].userId != t[j].userId || t[i].userAgent != t[j].userAgent
  }

  /** Under `UniqueActive`, the reuse lookup never meets several rows. */
  lemma {:induction false} UniqueActiveLookup(t: SessionTable, userId: int, userAgent: string)
    requires UniqueActive(t)
    ensures |ActiveSessions(t, userId, userAgent)| <= 1
  {
    if |t| > 0 {
      assert UniqueActive(t[1..]) by {
        forall i, j | 0 <= i < j < |t[1..]|
          ensures !(t[1..][i].isActive && t[1..][j].isActive) || t[1..][i].userId != t[1..][j].userId || t[1..][i].userAgent != t[1..][j].userAgent
        {
          assert t[1..][i] == t[i + 1] && t[1..][j] == t[j + 1];
        }
      }
      UniqueActiveLookup(t[1..], userId, userAgent);
      if SessionMatches(t[0], ActiveFor(userId, userAgent)) {
        forall k | 0 <= k < |t[1..]|
          ensures !SessionMatches(t[1..][k], ActiveFor(userId, userAgent))
        {
          assert t[1..][k] == t[k + 1];
        }
        SelectNothing(t[1..], ActiveFor(userId, userAgent));
      }
    }
  }

  /** Issuance keeps at most one active session per user and user agent. */
  lemma IssuePreservesUniqueActive(db: Db, cfg: Config, now: int, user: Users.User, req: Request, freshId: string)
    requires UniqueActive(db.sessions)
    ensures UniqueActive(IssueTokens(db, cfg, now, user, req, freshId).db.sessions)
  {
    var o := IssueTokens(db, cfg, now, user, req, freshId);
    var active := ActiveSessions(db.sessions, user.id, req.userAgent);
    if o.db != db {
      var s := CreateSession(cfg, freshId, req.userAgent, user.id, now);
      assert |active| == 0;
      var t := db.sessions + [s];
      forall i, j | 0 <= i < j < |t| && t[i].isActive && t[j].isActive
        ensures t[i].userId != t[j].userId || t[i].userAgent != t[j].userAgent
      {
        if j == |t| - 1 {
          assert t[i] in db.sessions;
          assert !SessionMatches(t[i], ActiveFor(user.id, req.userAgent));
        }
      }
    }
  }
}

=== FILE: sessions.dfy ===
/**
  The `user_sessions` table, typed. Each query the authentication code issues
  through the generic DAO has a typed counterpart here, and a bridge lemma shows
  that the typed query is what the DAO computes on the encoded rows.
 */
module Sessions {
  import opened Wrappers
  import Dao

  datatype Session = Session(
    id: string,
    userId: int,
    userAgent: string,
    createdAt: int,
    expiresAt: int,
    isActive: bool)

  /** The rows of the table, in insertion order. */
  type SessionTable = seq<Session>

  /** A session filter schema: a field left unset is `None`. */
  datatype SessionFilter = SessionFilter(
    id: Option<string>,
    userId: Option<int>,
    userAgent: Option<string>,
    isActive: Option<bool>)

  /** The filter of `find_one_or_none_by_id`. */
  function ById(sid: string): SessionFilter {
    SessionFilter(Some(sid), None, None, None)
  }

  /** The filter of the deactivating updates: the row with that id, if still active. */
  function ActiveById(sid: string): SessionFilter {
    SessionFilter(Some(sid), None, None, Some(true))
  }

  /** The filter the issuing path uses to look for a reusable session. */
  function ActiveFor(userId: int, userAgent: string): SessionFilter {
    SessionFilter(None, Some(userId), Some(userAgent), Some(true))
  }

  predicate SessionMatches(s: Session, f: SessionFilter) {
    && (f.id.None? || s.id == f.id.value)
    && (f.userId.None? || s.userId == f.userId.value)
    && (f.userAgent.None? || s.userAgent == f.userAgent.value)
    && (f.isActive.None? || s.isActive == f.isActive.value)
  }

  function ToRow(s: Session): Dao.Row {
    map[
      "id" := Dao.StrV(s.id),
      "user_id" := Dao.IntV(s.userId),
      "user_agent" := Dao.StrV(s.userAgent),
      "created_at" := Dao.IntV(s.createdAt),
      "expires_at" := Dao.IntV(s.expiresAt),
      "is_active" := Dao.BoolV(s.isActive)]
  }

  function ToTable(t: SessionTable): (rows: Dao.Table)
    ensures |rows| == |t|
    ensures forall i :: 0 <= i < |t| ==> rows[i] == ToRow(t[i])
  {
    seq(|t|, i requires 0 <= i < |t| => ToRow(t[i]))
  }

  function Optional(c: string, v: Option<Dao.Value>): Dao.Fields {
    if v.Some? then [(c, v.value)] else []
  }

  /** `model_dump(exclude_unset=True)` of a session filter. */
  function FilterFields(f: SessionFilter): Dao.Fields {
    Optional("id", if f.id.Some? then Some(Dao.StrV(f.id.value)) else None)
    + Optional("user_id", if f.userId.Some? then Some(Dao.IntV(f.userId.value)) else None)
    + Optional("user_agent", if f.userAgent.Some? then Some(Dao.StrV(f.userAgent.value)) else None)
    + Optional("is_active", if f.isActive.Some? then Some(Dao.BoolV(f.isActive.value)) else None)
  }

  lemma MatchesConcat(row: Dao.Row, a: Dao.Fields, b: Dao.Fields)
    ensures Dao.Matches(row, a + b) <==> Dao.Matches(row, a) && Dao.Matches(row, b)
  {
    if Dao.Matches(row, a) && Dao.Matches(row, b) {
      forall i | 0 <= i < |a + b|
        ensures (a + b)[i].0 in row && row[(a + b)[i].0] == (a + b)[i].1
      {
        if i >= |a| {
          assert (a + b)[i] == b[i - |a|];
        }
      }
    }
    if Dao.Matches(row, a + b) {
      forall i | 0 <= i < |a|
        ensures a[i].0 in row && row[a[i].0] == a[i].1
      {
        assert (a + b)[i] == a[i];
      }
      forall i | 0 <= i < |b|
        ensures b[i].0 in row && row[b[i].0] == b[i].1
      {
        assert (a + b)[|a| + i] == b[i];
      }
    }
  }

  lemma MatchesOptional(row: Dao.Row, c: string, v: Option<Dao.Value>)
    ensures Dao.Matches(row, Optional(c, v)) <==> v.None? || (c in row && row[c] == v.value)
  {
    if v.Some? {
      assert Optional(c, v)[0] == (c, v.value);
    }
  }

  /** A typed filter selects a session exactly when the DAO filter selects its row. */
  lemma MatchesAgree(s: Session, f: SessionFilter)
    ensures Dao.Matches(ToRow(s), FilterFields(f)) <==> SessionMatches(s, f)
  {
    var row := ToRow(s);
    var a := Optional("id", if f.id.Some? then Some(Dao.StrV(f.id.value)) else None);
    var b := Optional("user_id", if f.userId.Some? then Some(Dao.IntV(f.userId.value)) else None);
    var c := Optional("user_agent", if f.userAgent.Some? then Some(Dao.StrV(f.userAgent.value)) else None);
    var d := Optional("is_active", if f.isActive.Some? then Some(Dao.BoolV(f.isActive.value)) else None);
    MatchesConcat(row, a + b + c, d);
    MatchesConcat(row, a + b, c);
    MatchesConcat(row, a, b);
    MatchesOptional(row, "id", if f.id.Some? then Some(Dao.StrV(f.id.value)) else None);
    MatchesOptional(row, "user_id", if f.userId.Some? then Some(Dao.IntV(f.userId.value)) else None);
    MatchesOptional(row, "user_agent", if f.userAgent.Some? then Some(Dao.StrV(f.userAgent.value)) else None);
    MatchesOptional(row, "is_active", if f.isActive.Some? then Some(Dao.BoolV(f.isActive.value)) else None);
  }

  /** The sessions a filtered SELECT returns, in table order. */
  function SelectSessions(t: SessionTable, f: SessionFilter): (r: SessionTable)
    ensures |r| <= |t|
    ensures forall s :: s in r <==> s in t && SessionMatches(s, f)
  {
    if |t| == 0 then []
    else if SessionMatches(t[0], f) then [t[0]] + SelectSessions(t[1..], f)
    else SelectSessions(t[1..], f)
  }

  /** The typed selection is the DAO's selection on the encoded table. */
  lemma {:induction false} SelectAgrees(t: SessionTable, f: SessionFilter)
    ensures Dao.Select(ToTable(t), FilterFields(f)) == ToTable(SelectSessions(t, f))
  {
    if |t| > 0 {
      SelectAgrees(t[1..], f);
      MatchesAgree(t[0], f);
      assert ToTable(t)[1..] == ToTable(t[1..]);
      if SessionMatches(t[0], f) {
        assert ToTable([t[0]] + SelectSessions(t[1..], f)) == [ToRow(t[0])] + ToTable(SelectSessions(t[1..], f));
      }
    }
  }

  /** `find_one_or_none` on the session table. */
  function FindSession(t: SessionTable, f: SessionFilter): (r: Result<Option<Session>, Dao.DaoError>)
    ensures r == Success(None) <==> forall s :: s in t ==> !SessionMatches(s, f)
    ensures r.Success? && r.value.Some? ==> SelectSessions(t, f) == [r.value.value]
    ensures r.Failure? <==> |SelectSessions(t, f)| > 1
  {
    var rows := SelectSessions(t, f);
    if |rows| == 0 then Success(None)
    else if |rows| == 1 then
      assert rows[0] in rows;
      Success(Some(rows[0]))
    else
      assert rows[0] in rows;
      Failure(Dao.MultipleResultsFound)
  }

  function RowResult(r: Result<Option<Session>, Dao.DaoError>): Result<Option<Dao.Row>, Dao.DaoError> {
    match r
    case Success(Some(s)) => Success(Some(ToRow(s)))
    case Success(None) => Success(None)
    case Failure(e) => Failure(e)
  }

  /** The typed lookup is the DAO's `find_one_or_none` on the encoded table. */
  lemma FindSessionAgrees(t: SessionTable, f: SessionFilter)
    ensures Dao.FindOneOrNone(ToTable(t), FilterFields(f)) == RowResult(FindSession(t, f))
  {
    SelectAgrees(t, f);
  }

  /** `find_one_or_none_by_id` on the session table. */
  function FindSessionById(t: SessionTable, sid: string): (r: Result<Option<Session>, Dao.DaoError>)
    ensures r == Success(None) <==> forall s :: s in t ==> s.id != sid
    ensures r.Success? && r.value.Some? ==> r.value.value in t && r.value.value.id == sid
    ensures r.Success? && r.value.Some? ==> SelectSessions(t, ById(sid)) == [r.value.value]
    ensures r.Failure? <==> |SelectSessions(t, ById(sid))| > 1
  {
    var r := FindSession(t, ById(sid));
    if r.Success? && r.value.Some? then
      assert r.value.value in SelectSessions(t, ById(sid));
      r
    else r
  }

  /** The session with `is_active` cleared and every other column kept. */
  function Deactivated(s: Session): Session {
    s.(isActive := false)
  }

  /** `update(filters, values=UserSessionModel(is_active=False))` on the session table. */
  function Deactivate(t: SessionTable, f: SessionFilter): (r: SessionTable)
    ensures |r| == |t|
    ensures forall i :: 0 <= i < |t| && SessionMatches(t[i], f) ==> r[i] == Deactivated(t[i])
    ensures forall i :: 0 <= i < |t| && !SessionMatches(t[i], f) ==> r[i] == t[i]
  {
    seq(|t|, i requires 0 <= i < |t| => if SessionMatches(t[i], f) then Deactivated(t[i]) else t[i])
  }

  /** The values schema that clears `is_active`. */
  const DeactivateValues: Dao.Fields := [("is_active", Dao.BoolV(false))]

  /** The typed deactivation is the DAO's `update` on the encoded table. */
  lemma DeactivateAgrees(t: SessionTable, f: SessionFilter)
    ensures Dao.Update(ToTable(t), FilterFields(f), DeactivateValues).table == ToTable(Deactivate(t, f))
  {
    var u := Dao.Update(ToTable(t), FilterFields(f), DeactivateValues).table;
    var d := ToTable(Deactivate(t, f));
    forall i | 0 <= i < |t|
      ensures u[i] == d[i]
    {
      MatchesAgree(t[i], f);
      DeactivateRowAgrees(t[i]);
    }
  }

  /**
    Revocation through `update` with its row read: it fails exactly when the read
    raises, and when it returns, the table is the revoked one.
   */
  function DeactivateRead(t: SessionTable, f: SessionFilter, shape: Dao.UpdateReturns): (r: Result<SessionTable, Dao.DaoError>)
    ensures r.Failure? <==> shape == Dao.NoRows || |SelectSessions(t, f)| > 1
    ensures r.Failure? && shape == Dao.NoRows ==> r.error == Dao.RowlessResult
    ensures r.Failure? && shape == Dao.UpdatedRows ==> r.error == Dao.MultipleResultsFound
    ensures r.Success? ==> r.value == Deactivate(t, f)
    ensures r.Success? <==> Dao.UpdateRead(ToTable(t), FilterFields(f), DeactivateValues, shape).Success?
    ensures r.Success? ==>
      var u := Dao.UpdateRead(ToTable(t), FilterFields(f), DeactivateValues, shape);
      u.Success? && ToTable(r.value) == u.value.table
  {
    DeactivateAgrees(t, f);
    SelectAgrees(t, f);
    match Dao.UpdateRead(ToTable(t), FilterFields(f), DeactivateValues, shape)
    case Failure(e) => Failure(e)
    case Success(_) => Success(Deactivate(t, f))
  }

  /** Clearing `is_active` through the DAO's SET clause gives the deactivated session's row. */
  lemma DeactivateRowAgrees(s: Session)
    ensures Dao.ApplyFields(ToRow(s), DeactivateValues) == ToRow(Deactivated(s))
  {
    var row := ToRow(s);
    assert DeactivateValues[1..] == [];
    assert Dao.ApplyFields(row, DeactivateValues) == Dao.ApplyFields(row["is_active" := Dao.BoolV(false)], []);
  }

  /** Session ids are the table's primary key. */
  predicate UniqueIds(t: SessionTable) {
    forall i, j :: 0 <= i < j < |t| ==> t[i].id != t[j].id
  }

  predicate IdTaken(t: SessionTable, sid: string) {
    exists i :: 0 <= i < |t| && t[i].id == sid
  }

  /** `add` followed by the flush: a row whose key is taken is refused by the database. */
  function AddSession(t: SessionTable, s: Session): (r: Result<SessionTable, Dao.DaoError>)
    ensures r.Failure? <==> IdTaken(t, s.id)
    ensures r.Success? ==> r.value == t + [s]
  {
    if exists i :: 0 <= i < |t| && t[i].id == s.id then Failure(Dao.DuplicatePrimaryKey)
    else Success(t + [s])
  }

  /** Adding a row under an unused key keeps the key unique. */
  lemma AddKeepsUniqueIds(t: SessionTable, s: Session)
    requires UniqueIds(t) && !IdTaken(t, s.id)
    ensures UniqueIds(t + [s])
  {
  }

  /** A filter that matches no row selects nothing. */
  lemma {:induction false} SelectNothing(t: SessionTable, f: SessionFilter)
    requires forall k :: 0 <= k < |t| ==> !SessionMatches(t[k], f)
    ensures SelectSessions(t, f) == []
  {
    if |t| > 0 {
      assert forall k :: 0 <= k < |t[1..]| ==> t[1..][k] == t[k + 1];
      SelectNothing(t[1..], f);
    }
  }

  /** With a primary key, the lookup by id finds exactly the row holding that id. */
  lemma {:induction false} SelectByIdSingle(t: SessionTable, i: int)
    requires UniqueIds(t) && 0 <= i < |t|
    ensures SelectSessions(t, ById(t[i].id)) == [t[i]]
  {
    var f := ById(t[i].id);
    if i == 0 {
      forall k | 0 <= k < |t[1..]|
        ensures !SessionMatches(t[1..][k], f)
      {
        assert t[1..][k] == t[k + 1];
      }
      SelectNothing(t[1..], f);
    } else {
      assert t[0].id != t[i].id;
      assert t[1..][i - 1] == t[i];
      SelectByIdSingle(t[1..], i - 1);
    }
  }

  lemma FindByIdLocates(t: SessionTable, i: int)
    requires UniqueIds(t) && 0 <= i < |t|
    ensures FindSessionById(t, t[i].id) == Success(Some(t[i]))
  {
    SelectByIdSingle(t, i);
  }

  /** Under the primary key, the lookup by id never reports several rows. */
  lemma FindByIdNeverMultiple(t: SessionTable, sid: string)
    ensures UniqueIds(t) ==> FindSessionById(t, sid).Success?
  {
    if UniqueIds(t) && IdTaken(t, sid) {
      var i :| 0 <= i < |t| && t[i].id == sid;
      FindByIdLocates(t, i);
    }
  }

  /** The revoking filter narrows the lookup by id, so it selects no more rows. */
  lemma {:induction false} ActiveByIdWithinById(t: SessionTable, sid: string)
    ensures |SelectSessions(t, ActiveById(sid))| <= |SelectSessions(t, ById(sid))|
  {
    if |t| > 0 {
      ActiveByIdWithinById(t[1..], sid);
    }
  }

  /**
    Once the lookup by id has returned, revoking that id through the row-returning
    read returns normally: it updates at most the one row the lookup saw.
   */
  lemma DeactivateReadAfterLookup(t: SessionTable, sid: string)
    requires FindSessionById(t, sid).Success?
    ensures DeactivateRead(t, ActiveById(sid), Dao.UpdatedRows) == Success(Deactivate(t, ActiveById(sid)))
  {
    ActiveByIdWithinById(t, sid);
  }
}

=== FILE: store.dfy ===
/**
  The database state the authentication code reads and writes: the user table
  (read only) and the session table, plus the outcome shape of every operation
  that may write: the new state and either a value or a named error.
 */
module Store {
  import opened Wrappers
  import Users
  import opened Sessions
  import opened Web

  datatype Db = Db(users: seq<Users.User>, sessions: SessionTable)

  /** The constraints the database enforces: primary keys, the unique Telegram index, the foreign key. */
  predicate Consistent(db: Db) {
    && Users.WellFormed(db.users)
    && UniqueIds(db.sessions)
    && forall i :: 0 <= i < |db.sessions| ==> Users.FindById(db.users, db.sessions[i].userId).Some?
  }

  /**
    The state after an operation and its result. A failed operation leaves the
    state as it found it: the request's transaction is rolled back.
   */
  datatype Outcome<T> = Outcome(db: Db, result: Result<T, AuthError>)

  function Fail<T>(db: Db, e: AuthError): Outcome<T> {
    Outcome(db, Failure(e))
  }
}

=== FILE: text.dfy ===
/**
  String helpers the authentication code relies on: `str.isdigit`, `int(...)`,
  `str(n)`, `str.split`, `str.capitalize`, `"".join` and ASCII case folding.
  Only the ASCII behaviour of these Python built-ins is modelled.
 */
module Text {
  import opened Wrappers

  /** `c.isdigit()` for ASCII characters. */
  predicate IsDigit(c: char) {
    '0' <= c <= '9'
  }

  predicate AllDigits(s: string) {
    forall i :: 0 <= i < |s| ==> IsDigit(s[i])
  }

  /** `s.isdigit()`: at least one character, and every character a digit. */
  predicate IsDigitString(s: string) {
    |s| > 0 && AllDigits(s)
  }

  /** A decimal numeral without superfluous leading zeros, as `str(n)` prints it. */
  predicate Canonical(s: string) {
    IsDigitString(s) && (s[0] == '0' ==> |s| == 1)
  }

  function DigitValue(c: char): nat
    requires IsDigit(c)
  {
    c as int - '0' as int
  }

  function DigitChar(d: nat): (c: char)
    requires d < 10
    ensures IsDigit(c) && DigitValue(c) == d
  {
    ('0' as int + d) as char
  }

  /** The natural number a run of decimal digits denotes, most significant digit first. */
  function DigitsValue(s: string): nat
    requires AllDigits(s)
  {
    if |s| == 0 then 0 else 10 * DigitsValue(s[..|s| - 1]) + DigitValue(s[|s| - 1])
  }

  /** `str(n)` for a natural number. */
  function NatToString(n: nat): (s: string)
    ensures IsDigitString(s)
    ensures s[0] == '0' <==> n == 0
    ensures Canonical(s)
  {
    if n < 10 then [DigitChar(n)] else NatToString(n / 10) + [DigitChar(n % 10)]
  }

  /** `str(n)` for any integer: a minus sign in front of the digits of a negative number. */
  function IntToString(n: int): string {
    if n < 0 then "-" + NatToString(-n) else NatToString(n)
  }

  /**
    `int(s)` on a string: an optional sign followed by decimal digits.
    `None` stands for the `ValueError` Python raises on anything else.
   */
  function ParseInt(s: string): (r: Option<int>)
    ensures r.Some? ==> |s| > 0
    ensures IsDigitString(s) ==> r == Some(DigitsValue(s) as int)
  {
    if |s| > 0 && (s[0] == '-' || s[0] == '+') then
      if IsDigitString(s[1..]) then
        var v: int := DigitsValue(s[1..]);
        Some(if s[0] == '-' then -v else v)
      else None
    else if IsDigitString(s) then Some(DigitsValue(s))
    else None
  }

  /** Reading back what `str(n)` printed yields `n`. */
  lemma {:induction false} NatToStringRoundTrip(n: nat)
    ensures DigitsValue(NatToString(n)) == n
  {
    if n >= 10 {
      var p := NatToString(n / 10);
      var s := NatToString(n);
      assert s == p + [DigitChar(n % 10)];
      assert s[..|s| - 1] == p;
      NatToStringRoundTrip(n / 10);
    }
  }

  /** `int(str(n)) == n` for every integer. */
  lemma ParseIntRoundTrip(n: int)
    ensures ParseInt(IntToString(n)) == Some(n)
  {
    var s := IntToString(n);
    if n < 0 {
      assert s[1..] == NatToString(-n);
      NatToStringRoundTrip(-n);
    } else {
      NatToStringRoundTrip(n);
    }
  }

  function UpperChar(c: char): char {
    if 'a' <= c <= 'z' then (c as int - 32) as char else c
  }

  function LowerChar(c: char): char {
    if 'A' <= c <= 'Z' then (c as int + 32) as char else c
  }

  /** `s.lower()` on ASCII text. */
  function Lower(s: string): (r: string)
    ensures |r| == |s|
    ensures forall i :: 0 <= i < |s| ==> r[i] == LowerChar(s[i])
  {
    seq(|s|, i requires 0 <= i < |s| => LowerChar(s[i]))
  }

  /** Lower-casing is idempotent. */
  lemma LowerIdempotent(s: string)
    ensures Lower(Lower(s)) == Lower(s)
  {
    assert forall i :: 0 <= i < |s| ==> LowerChar(LowerChar(s[i])) == LowerChar(s[i]);
  }

  /** `w.capitalize()`: the first character upper-cased, the rest lower-cased. */
  function Capitalize(w: string): (r: string)
    ensures |r| == |w|
  {
    if |w| == 0 then w else [UpperChar(w[0])] + Lower(w[1..])
  }

  function CapitalizeAll(ws: seq<string>): (rs: seq<string>)
    ensures |rs| == |ws|
    ensures forall i :: 0 <= i < |ws| ==> rs[i] == Capitalize(ws[i])
  {
    seq(|ws|, i requires 0 <= i < |ws| => Capitalize(ws[i]))
  }

  /** `s.split(sep)`: the pieces between successive separators, empty pieces included. */
  function Split(s: string, sep: char): (parts: seq<string>)
    ensures |parts| >= 1
    ensures forall i :: 0 <= i < |parts| ==> sep !in parts[i]
  {
    if |s| == 0 then [""]
    else
      var rest := Split(s[1..], sep);
      if s[0] == sep then [""] + rest else [[s[0]] + rest[0]] + rest[1..]
  }

  /** `sep.join(parts)`. */
  function Join(parts: seq<string>, sep: char): string
    requires |parts| >= 1
  {
    if |parts| == 1 then parts[0] else parts[0] + [sep] + Join(parts[1..], sep)
  }

  /** `"".join(parts)`. */
  function Concat(parts: seq<string>): string {
    if |parts| == 0 then "" else parts[0] + Concat(parts[1..])
  }

  /** Joining the pieces of a split with the same separator restores the string. */
  lemma {:induction false} SplitJoin(s: string, sep: char)
    ensures Join(Split(s, sep), sep) == s
  {
    if |s| > 0 {
      var rest := Split(s[1..], sep);
      SplitJoin(s[1..], sep);
      if s[0] == sep {
        assert ([""] + rest)[1..] == rest;
        assert s == [sep] + s[1..];
      } else {
        var parts := [[s[0]] + rest[0]] + rest[1..];
        if |rest| == 1 {
          assert s == [s[0]] + s[1..];
        } else {
          assert parts[1..] == rest[1..];
          assert Join(rest, sep) == rest[0] + [sep] + Join(rest[1..], sep);
          assert s == [s[0]] + s[1..];
        }
      }
    }
  }

  /** Case folding maps '-' to itself and nothing else to '-'. */
  lemma CaseKeepsDash(c: char)
    ensures UpperChar(c) == '-' <==> c == '-'
    ensures LowerChar(c) == '-' <==> c == '-'
  {
  }

  /** Capitalising a word introduces no '-'. */
  lemma CapitalizeNoDash(w: string)
    requires '-' !in w
    ensures '-' !in Capitalize(w)
  {
    var r := Capitalize(w);
    forall i | 0 <= i < |r|
      ensures r[i] != '-'
    {
      CaseKeepsDash(w[i]);
      if i > 0 {
        assert r[i] == Lower(w[1..])[i - 1] == LowerChar(w[i]);
      }
    }
  }

  /** Concatenating pieces none of which holds '-' yields a string without '-'. */
  lemma {:induction false} ConcatNoDash(parts: seq<string>)
    requires forall i :: 0 <= i < |parts| ==> '-' !in parts[i]
    ensures '-' !in Concat(parts)
  {
    if |parts| > 0 {
      ConcatNoDash(parts[1..]);
    }
  }
}

=== FILE: tokens.dfy ===
/**
  Bearer tokens. Signing is abstract: a token is either one the service signed,
  carrying its claim set, or any other text. Decoding follows the codec's own
  rules: an unsigned text is malformed, a signed token whose `exp` lies in the
  past is expired, anything else yields its claims.
 */
module Tokens {
  import opened Wrappers

  const SecondsPerDay: int := 86400
  const SecondsPerMinute: int := 60

  /** The `type` claim the issuing code writes. */
  const AccessKind: string := "access"
  const RefreshKind: string := "refresh"

  /** The claim set; a claim the payload lacks is `None`. */
  datatype Claims = Claims(sub: Option<string>, sid: Option<string>, exp: Option<int>, kind: Option<string>)

  datatype Token = Signed(claims: Claims) | Unsigned(text: string)

  /** Truthiness of the token text: only the empty string is false, and a signed token is never empty. */
  predicate Present(t: Token) {
    t.Signed? || |t.text| > 0
  }

  /** The two lifetime settings, as integers. */
  datatype Config = Config(accessExpireMinutes: int, refreshExpireDays: int)

  datatype DecodeOutcome = Decoded(claims: Claims) | SignatureExpired | Malformed

  /** Decoding at time `now` (integer seconds). */
  function Decode(t: Token, now: int): (d: DecodeOutcome)
    ensures d.Malformed? <==> t.Unsigned?
    ensures d.SignatureExpired? <==> t.Signed? && t.claims.exp.Some? && t.claims.exp.value < now
    ensures d.Decoded? ==> t == Signed(d.claims)
  {
    match t
    case Unsigned(_) => Malformed
    case Signed(c) => if c.exp.Some? && c.exp.value < now then SignatureExpired else Decoded(c)
  }

  /** The claim set the issuing code signs: subject, session id, expiry and kind. */
  function Payload(subject: string, sid: string, lifetime: int, kind: string, now: int): Claims {
    Claims(Some(subject), Some(sid), Some(now + lifetime), Some(kind))
  }

  /** `create_jwt_token`; `subject` is already the text `str(telegram_id)` produced. */
  function CreateJwtToken(subject: string, sid: string, lifetime: int, kind: string, now: int): (t: Token)
    ensures Present(t)
  {
    Signed(Payload(subject, sid, lifetime, kind, now))
  }

  /**
    A freshly created token decodes to exactly the claims it was built from,
    up to and including its expiry second, and is expired after it.
   */
  lemma DecodeCreated(subject: string, sid: string, lifetime: int, kind: string, now: int, later: int)
    ensures later <= now + lifetime ==>
      Decode(CreateJwtToken(subject, sid, lifetime, kind, now), later)
        == Decoded(Claims(Some(subject), Some(sid), Some(now + lifetime), Some(kind)))
    ensures later > now + lifetime ==>
      Decode(CreateJwtToken(subject, sid, lifetime, kind, now), later) == SignatureExpired
  {
  }

  /** The access lifetime as written: the minutes setting is passed as a number of days. */
  function AccessLifetime(cfg: Config): (seconds: int)
    ensures seconds == 1440 * AccessLifetimeIntended(cfg)
    ensures cfg.accessExpireMinutes > 0 ==> seconds > AccessLifetimeIntended(cfg)
  {
    cfg.accessExpireMinutes * SecondsPerDay
  }

  /** The access lifetime the setting's name promises. */
  function AccessLifetimeIntended(cfg: Config): int {
    cfg.accessExpireMinutes * SecondsPerMinute
  }

  function RefreshLifetime(cfg: Config): int {
    cfg.refreshExpireDays * SecondsPerDay
  }

  /** `create_access_token`. */
  function CreateAccessToken(cfg: Config, subject: string, sid: string, now: int): (t: Token)
    ensures t.Signed? && t.claims.kind == Some(AccessKind)
    ensures t.claims.exp == Some(now + cfg.accessExpireMinutes * SecondsPerDay)
  {
    CreateJwtToken(subject, sid, AccessLifetime(cfg), AccessKind, now)
  }

  /** `create_refresh_token`. */
  function CreateRefreshToken(cfg: Config, subject: string, sid: string, now: int): (t: Token)
    ensures t.Signed? && t.claims.kind == Some(RefreshKind)
    ensures t.claims.exp == Some(now + cfg.refreshExpireDays * SecondsPerDay)
  {
    CreateJwtToken(subject, sid, RefreshLifetime(cfg), RefreshKind, now)
  }

  /** The access token with the lifetime its setting's name promises. */
  function CreateAccessTokenIntended(cfg: Config, subject: string, sid: string, now: int): (t: Token)
    ensures t.Signed? && t.claims.kind == Some(AccessKind)
    ensures t.claims.exp == Some(now + cfg.accessExpireMinutes * SecondsPerMinute)
    ensures t.claims.sub == Some(subject) && t.claims.sid == Some(sid)
  {
    CreateJwtToken(subject, sid, AccessLifetimeIntended(cfg), AccessKind, now)
  }

  /**
    With a quarter-hour access setting and a one-week refresh setting, the access
    token issued as written outlives the refresh token issued beside it.
   */
  lemma AccessOutlivesRefresh(subject: string, sid: string, now: int)
    ensures
      var cfg := Config(15, 7);
      CreateAccessToken(cfg, subject, sid, now).claims.exp.value
        > CreateRefreshToken(cfg, subject, sid, now).claims.exp.value
  {
  }

  /**
    Read as minutes, the access setting makes the access token expire before the
    refresh token whenever the setting is shorter than the refresh lifetime.
   */
  lemma IntendedAccessExpiresFirst(cfg: Config, subject: string, sid: string, now: int)
    requires cfg.accessExpireMinutes < cfg.refreshExpireDays * 1440
    ensures CreateAccessTokenIntended(cfg, subject, sid, now).claims.exp.value
      < CreateRefreshToken(cfg, subject, sid, now).claims.exp.value
  {
  }
}

=== FILE: users.dfy ===
/**
  The read-only user table the authentication code consults: an internal key,
  the unique Telegram identity and the administrator flag.
 */
module Users {
  import opened Wrappers

  datatype User = User(id: int, telegramId: int, isAdmin: bool)

  /** The primary key and the unique index on `telegram_id`. */
  predicate WellFormed(users: seq<User>) {
    && (forall i, j :: 0 <= i < j < |users| ==> users[i].id != users[j].id)
    && (forall i, j :: 0 <= i < j < |users| ==> users[i].telegramId != users[j].telegramId)
  }

  /** The first user satisfying `p`: a query on the user table returning the first matching row. */
  function FindWhere(users: seq<User>, p: User -> bool): (r: Option<User>)
    ensures r.Some? ==> r.value in users && p(r.value)
    ensures r.None? <==> forall u :: u in users ==> !p(u)
  {
    if |users| == 0 then None
    else if p(users[0]) then Some(users[0])
    else FindWhere(users[1..], p)
  }

  /** The user lookup by Telegram identity. */
  function FindByTelegramId(users: seq<User>, telegramId: int): (r: Option<User>)
    ensures r.Some? ==> r.value in users && r.value.telegramId == telegramId
    ensures r.None? <==> forall u :: u in users ==> u.telegramId != telegramId
  {
    FindWhere(users, (u: User) => u.telegramId == telegramId)
  }

  /**
    The user a session row refers to: the `UserSession.user` relationship, a join
    on the `user_id` foreign key against the user's primary key (not a DAO lookup).
   */
  function FindById(users: seq<User>, id: int): (r: Option<User>)
    ensures r.Some? ==> r.value in users && r.value.id == id
    ensures r.None? <==> forall u :: u in users ==> u.id != id
  {
    FindWhere(users, (u: User) => u.id == id)
  }

  /** The administrator lookup by Telegram identity. */
  function FindAdminByTelegramId(users: seq<User>, telegramId: int): (r: Option<User>)
    ensures r.Some? ==> r.value in users && r.value.telegramId == telegramId && r.value.isAdmin
    ensures r.None? <==> forall u :: u in users ==> !(u.telegramId == telegramId && u.isAdmin)
  {
    FindWhere(users, (u: User) => u.telegramId == telegramId && u.isAdmin)
  }

  /** With a unique Telegram identity, the lookup returns exactly the user holding it. */
  lemma FindByTelegramIdExact(users: seq<User>, u: User)
    requires WellFormed(users) && u in users
    ensures FindByTelegramId(users, u.telegramId) == Some(u)
  {
    var r := FindByTelegramId(users, u.telegramId).value;
    var i :| 0 <= i < |users| && users[i] == u;
    var j :| 0 <= j < |users| && users[j] == r;
    assert i == j;
  }

  /** With a unique key, the foreign-key lookup returns exactly the user holding it. */
  lemma FindByIdExact(users: seq<User>, u: User)
    requires WellFormed(users) && u in users
    ensures FindById(users, u.id) == Some(u)
  {
    var r := FindById(users, u.id).value;
    var i :| 0 <= i < |users| && users[i] == u;
    var j :| 0 <= j < |users| && users[j] == r;
    assert i == j;
  }
}

=== FILE: web.dfy ===
/**
  What the authentication code sees of HTTP: request cookies and headers, the
  token names, the error conditions it raises, and the tokens it hands back.
  Header names are case-insensitive: the request keeps them lower-cased and a
  lookup lower-cases the name it is given.
 */
module Web {
  import opened Wrappers
  import opened Text
  import opened Tokens

  const AccessCookie: string := "access_token"
  const RefreshCookie: string := "refresh_token"

  /** The response headers written on issuance and rotation. */
  const AccessHeader: string := "X-Access-Token"
  const RefreshHeader: string := "X-Refresh-Token"

  datatype Request = Request(cookies: map<string, Token>, headers: map<string, Token>, userAgent: string)

  /** The request keeps its header names lower-cased, as the server hands them over. */
  predicate HeadersFolded(req: Request) {
    forall k :: k in req.headers ==> Lower(k) == k
  }

  function Cookie(req: Request, name: string): Option<Token> {
    if name in req.cookies then Some(req.cookies[name]) else None
  }

  function Header(req: Request, name: string): Option<Token> {
    if Lower(name) in req.headers then Some(req.headers[Lower(name)]) else None
  }

  /**
    On a request with folded header names, a header is found under a name
    exactly when the request carries it under some spelling of that name.
   */
  lemma HeaderIgnoresCase(req: Request, name: string)
    requires HeadersFolded(req)
    ensures Header(req, name).Some? <==> exists k :: k in req.headers && Lower(k) == Lower(name)
    ensures forall k :: k in req.headers && Lower(k) == Lower(name) ==> Header(req, name) == Some(req.headers[k])
  {
    if Lower(name) in req.headers {
      LowerIdempotent(name);
    }
  }

  /** Failures an uncaught Python exception turns into a server error. */
  datatype Fault =
    | UnboundPayload      // the log line of a failed decode reads `payload` before it is bound
    | NoneDereference     // an attribute read on a lookup that found nothing
    | BadIntLiteral       // `int(sub)` on a subject that is not an integer literal
    | MultipleRows        // `scalar_one_or_none` met several rows
    | DuplicateSessionId  // the new session's key is already taken
    | UncaughtJwtError    // a decode failure nothing catches
    | UpdateRowRead       // `update` reading a row from an UPDATE that returns none

  /** The named exceptions of the authentication code. */
  datatype AuthError =
    | TokenNoFound
    | TokenExpired
    | NoJwt
    | InvalidTokenFormat
    | UserNotFound
    | Forbidden
    | SessionNotValid
    | Crash(fault: Fault)

  /** HTTP status each error reaches the client with; an uncaught exception is a server error. */
  function Status(e: AuthError): (code: int)
    ensures code == 500 <==> e.Crash?
    ensures code == 400 <==> e in {TokenNoFound, InvalidTokenFormat}
    ensures code == 401 <==> e in {TokenExpired, NoJwt, SessionNotValid}
    ensures code == 403 <==> e == Forbidden
    ensures code == 404 <==> e == UserNotFound
  {
    match e
    case TokenNoFound => 400
    case TokenExpired => 401
    case NoJwt => 401
    case InvalidTokenFormat => 400
    case UserNotFound => 404
    case Forbidden => 403
    case SessionNotValid => 401
    case Crash(_) => 500
  }

  /** The token pair and session id an issuance or rotation hands back; `X-Session-ID` carries `sessionId`. */
  datatype Issued = Issued(accessToken: Token, refreshToken: Token, sessionId: string)

  /** `set_tokens_as_cookies`. */
  function ResponseCookies(i: Issued): map<string, Token> {
    map[AccessCookie := i.accessToken, RefreshCookie := i.refreshToken]
  }

  /** The token headers of the response. */
  function ResponseHeaders(i: Issued): map<string, Token> {
    map[AccessHeader := i.accessToken, RefreshHeader := i.refreshToken]
  }

  /** A later request from a client that stores the response cookies. */
  function CookieClient(i: Issued, userAgent: string): (req: Request)
    ensures HeadersFolded(req)
    ensures forall name :: name in ResponseCookies(i) ==> Cookie(req, name) == Some(ResponseCookies(i)[name])
  {
    Request(ResponseCookies(i), map[], userAgent)
  }

  /** A later request from a client without a cookie jar that echoes the token headers. */
  function HeaderClient(i: Issued, userAgent: string): Request {
    Request(map[], map[Lower(AccessHeader) := i.accessToken, Lower(RefreshHeader) := i.refreshToken], userAgent)
  }

  /** The header client carries folded names, and every response token header reads back its token. */
  lemma HeaderClientEchoes(i: Issued, userAgent: string)
    ensures HeadersFolded(HeaderClient(i, userAgent))
    ensures forall name :: name in ResponseHeaders(i) ==>
      Header(HeaderClient(i, userAgent), name) == Some(ResponseHeaders(i)[name])
  {
    LowerIdempotent(AccessHeader);
    LowerIdempotent(RefreshHeader);
    assert |Lower(AccessHeader)| != |Lower(RefreshHeader)|;
  }

  /** The header name the token lookup derives: `"X-" + "".join(w.capitalize() for w in name.split("_"))`. */
  function DerivedHeaderName(tokenName: string): (h: string)
    ensures |h| >= 2 && h[..2] == "X-"
    ensures '-' !in tokenName ==> '-' !in h[2..]
  {
    JoinedPiecesNoDash(tokenName);
    "X-" + Concat(CapitalizeAll(Split(tokenName, '_')))
  }

  /** Splitting on '_', capitalising and concatenating introduces no '-'. */
  lemma JoinedPiecesNoDash(tokenName: string)
    ensures '-' !in tokenName ==> '-' !in Concat(CapitalizeAll(Split(tokenName, '_')))
  {
    if '-' !in tokenName {
      var parts := Split(tokenName, '_');
      var caps := CapitalizeAll(parts);
      forall i | 0 <= i < |caps|
        ensures '-' !in caps[i]
      {
        forall k | 0 <= k < |parts[i]|
          ensures parts[i][k] != '-'
        {
          assert parts[i][k] in parts[i];
          SplitPieceIn(tokenName, i, k);
        }
        CapitalizeNoDash(parts[i]);
      }
      ConcatNoDash(caps);
    }
  }

  /** The derived header name holds no '-' beyond its `X-` prefix. */
  lemma DerivedHeaderHasOneDash(tokenName: string)
    requires '-' !in tokenName
    ensures '-' !in Lower(DerivedHeaderName(tokenName))[2..]
  {
    var h := DerivedHeaderName(tokenName);
    var l := Lower(h);
    forall k | 2 <= k < |l|
      ensures l[k] != '-'
    {
      CaseKeepsDash(h[k]);
      assert h[k] in h[2..];
    }
  }

  /** Every character of a split piece comes from the split string. */
  lemma {:induction false} SplitPieceIn(s: string, i: int, k: int)
    requires 0 <= i < |Split(s, '_')| && 0 <= k < |Split(s, '_')[i]|
    ensures Split(s, '_')[i][k] in s
  {
    if |s| > 0 {
      var rest := Split(s[1..], '_');
      if s[0] == '_' {
        SplitPieceIn(s[1..], i - 1, k);
      } else if i == 0 {
        if k > 0 {
          SplitPieceIn(s[1..], 0, k - 1);
        }
      } else {
        SplitPieceIn(s[1..], i, k);
      }
    }
  }
}

=== FILE: wrappers.dfy ===
/** Failure-carrying datatypes shared by every module of the model. */
module Wrappers {

  /** A value that may be absent: Python's `None` or a present value. */
  datatype Option<+T> = None | Some(value: T)

  /** The outcome of an operation that either yields a value or raises a named error. */
  datatype Result<+T, +E> = Success(value: T) | Failure(error: E)
}
